=== FILE: README.md ===
# Sharks Save Haven: the backup core in Dafny

Sharks Save Haven keeps backups of game save directories. A small catalog
records games, platforms, save locations and saves. Each save's files are
mirrored under `backups/<game id>/<platform id>/<save id>/`. This project
models the core of that program:

- `Filesystem::copy_files`, the recursive directory copy;
- the four `GameSaves` operations built on it: add, edit, remove and restore;
- the backup path that add, remove and both restore modes derive the same way.

Every operation is a pure function. It takes the catalog and the disk before
and returns its status and the state after. The lines the user types are
arguments (add, edit) or a sequence of input lines (restore).

- **Disk.** An immutable tree, `Node = File(bytes) | Dir(name -> node) | Special`.
  `Special` stands for anything that is neither a regular file nor a directory.
  Paths are sequences of names. A path string is resolved against the working
  directory as on POSIX systems: `/` is the only separator, a leading `/`
  starts at the root, `.` stays where it is and `..` goes up one level
  (`FileTree.Walk`, `FileTree.Resolve`). A string that ends in `/`, or whose last
  component is `.` or `..`, names a directory only (`FileTree.NamesDirectory`): `Path::exists` is false
  there for anything but a directory (`Filesystem.ExistsAs`).
- **Listing order.** The order of `fs::read_dir` is not fixed by the operating
  system, so it is a parameter (`Filesystem.Lister`). Whether a copy succeeds,
  and the tree after a successful copy, are proved not to depend on it
  (`Filesystem.CopyDirIsMerge`). Where a failing copy stops does depend on it.
- **Removal.** Whether `fs::remove_dir_all` can delete a directory depends on
  permissions the model does not track, so it is a parameter
  (`GameSaves.Env.canDelete`).
- **Errors.** `Status` is `Ok`, `IoError` (an `Err` returned to the caller) or
  `Panic(message)` (an `.expect` that fires). The message is the one the code
  gives. A panic keeps everything done before it: there is no rollback.
- **Catalog.** Four maps from integer id to row. An insert takes the next id
  (largest id plus one, 1 in an empty table), as SQLite does for an
  `INTEGER PRIMARY KEY`. A lookup of a missing id gives the not-found sentinel:
  id `-1`, or a row with empty fields. A title search matches by prefix and
  returns ids in ascending order.
- **Catalog definitions.** Some catalog functions are plain definitions, and
  other members state what they mean:
  - `Catalog.GameIdOf` and `Catalog.GameOf` are `get_game`
    (src/game_saves.rs:18, src/game_saves.rs:82, src/game_saves.rs:276).
    `GameSaves.EditWithoutChange`, `Restore.RestoreWithoutChange` and
    `GameSaves.AddThenRemove` state what their not-found sentinel means to the
    callers.
  - `Catalog.LocationOf` is `get_location` (src/game_saves.rs:290-292).
  - `Catalog.SavesOf` is the set of ids of a game's saves. `Catalog.SaveIdsOf`
    lists it in order.
  - `Catalog.SaveRowsOf` is what `get_all_saves_by_id` returns
    (src/game_saves.rs:21-23). `GameSaves.SaveRowsOfSets` and
    `GameSaves.SaveRowsIndexed` state which rows it holds.
  - `GameSaves.Keep` is the rule that an empty answer keeps the old value
    (src/game_saves.rs:118-132). `GameSaves.EditMergesFields` and
    `GameSaves.EditIdempotent` state the edit in terms of it.
- **Declarative reference.** `Filesystem.Merge(src, dst)` says what a
  successful copy leaves. Each name of `src` holds its file, or the merge of its
  directory into the existing entry. Every other name keeps what `dst` had.
  `Filesystem.CanCopy` says when a copy cannot fail.

The `Save` table in `src/db.rs:38-48` has no `platform_id` column. The
operations in `src/game_saves.rs` read and write one, and the model follows
the operations.

## Model

| member | source | states |
|---|---|---|
| `Text.Trim` | src/game_saves.rs:113-115 | `str::trim`: the result is the input without its leading and trailing Unicode white space, and is itself neither led nor ended by white space |
| `Text.TrimEmptyIff` | src/game_saves.rs:117 | a trimmed answer is empty exactly when the line holds only white space |
| `Text.TrimIdempotent` | src/game_saves.rs:113-115 | trimming twice is trimming once |
| `Text.IsYesIff` | src/game_saves.rs:337 | a per-file answer says yes exactly when, trimmed, it is `y` or `Y` |
| `Decimal.ParseI32` | src/game_saves.rs:79 | `parse::<i32>` of the menu choice: a result is always within the 32-bit signed range and the text starts with a sign or a digit |
| `Decimal.ParseI32Show` | src/game_saves.rs:79 | every 32-bit id, written in decimal, parses back to itself |
| `Decimal.ParseI32Sound` | src/game_saves.rs:79 | every accepted choice is an optional sign, then the decimal rendering of the result's magnitude after leading zeros, a minus sign only on a value that is not positive; text with anything else, such as a non-digit after the sign, is rejected |
| `Decimal.ParseI32Signed` | src/game_saves.rs:79 | a sign and a digit string parse to the signed value of the digits exactly when it fits in 32 bits, and are rejected otherwise |
| `Decimal.ParseI32Padded` | src/game_saves.rs:79 | every optional sign, leading zeros and decimal rendering parse to the value they denote when it fits in 32 bits, and are rejected, never wrapped around, when it does not |
| `Decimal.ParseI32RejectsOverflow` | src/game_saves.rs:79 | `2147483648`, one past the largest 32-bit value, is rejected |
| `Decimal.ParseI32RejectsWrap` | src/game_saves.rs:79 | `4294967297`, which a 32-bit wrap-around would turn into 1, is rejected |
| `Decimal.ParseI32Lenient` | src/game_saves.rs:79 | for every non-empty digit string, a leading `+` or a leading `0` does not change the value it parses to (`+007` is 7); a lone sign is rejected |
| `Decimal.ValueOfLeadingZero` | src/game_saves.rs:79 | a leading zero leaves the decimal value of a digit string unchanged |
| `Decimal.ParseShow` | src/game_saves.rs:25-28 | an id formatted with `{}` reads back as the same id |
| `Decimal.ShowInjective` | src/game_saves.rs:25-28 | distinct ids format differently |
| `Ids.NextId` | src/game_saves.rs:201-212 | the id an insert hands out is not in use and is larger than every id in use, and is 1 for an empty table |
| `Ids.Sorted` | src/game_saves.rs:21-23 | a query result lists each id of the set exactly once, in ascending order |
| `Catalog.InsertRow` | src/game_saves.rs:201-212 | an insert adds exactly one row, under a fresh id, and keeps every existing row |
| `Catalog.DeleteRow` | src/game_saves.rs:38-44 | a delete by id removes that row only, and a missing id removes nothing |
| `Catalog.SaveIdsOf` | src/game_saves.rs:284-286 | the saves of a game in ascending id order, each once |
| `Catalog.GamesByTitle` | src/game_saves.rs:59-61 | the title search returns exactly the games whose title starts with the query, in id order |
| `Catalog.GamesByEmptyTitle` | src/game_saves.rs:253-255 | an empty query finds every game |
| `Catalog.UpdateGame` | src/game_saves.rs:134-135 | `update_game` replaces only the row of that id and touches no other table; a missing id changes nothing |
| `FileTree.GetUpdate` | src/filesystem.rs:13-36 | after a subtree is written at a path, below that path is the new subtree and every disjoint path is as it was |
| `FileTree.MkdirAll` | src/filesystem.rs:15-17 | `create_dir_all`, when it succeeds, leaves a directory at the path, a new empty one where there was nothing; an existing directory is left as it is; it never succeeds where something other than a directory is |
| `FileTree.GetMkdirAll` | src/filesystem.rs:15-17 | `create_dir_all` changes nothing disjoint from the path it creates |
| `FileTree.MkdirAllFails` | src/filesystem.rs:15-17 | `create_dir_all` fails exactly when the path or one of its ancestors exists and is not a directory |
| `FileTree.MkdirAllInEmpty` | src/filesystem.rs:15-17 | inside an empty directory `create_dir_all` cannot fail |
| `FileTree.Remove` | src/game_saves.rs:30-31 | after `remove_dir_all` nothing is left at the path |
| `FileTree.GetRemove` | src/game_saves.rs:30-31 | `remove_dir_all` changes nothing disjoint from the removed path |
| `FileTree.Put` | src/filesystem.rs:26-27 | after a write of one entry into a directory, that entry holds what was written |
| `FileTree.GetPut` | src/filesystem.rs:26-27 | writing one entry into a directory changes nothing disjoint from that entry |
| `FileTree.ComponentsCons` | src/game_saves.rs:215-217 | a path string splits at its first `/` into a first component and the rest |
| `FileTree.Walk` | src/game_saves.rs:215 | following path components without `.` or `..` appends them to the start directory, and from a start without `.` or `..` the result has none either |
| `FileTree.Resolve` | src/game_saves.rs:215 | an absolute path string, or any path string relative to a working directory without `.` or `..`, resolves to a path without `.` or `..` |
| `FileTree.ResolveEmpty` | src/game_saves.rs:339-349 | the empty path string resolves to the working directory, so a name joined to it, as `Path::new("").join(name)` and a copy into `PathBuf::from("")` do, lands in the working directory |
| `Filesystem.Prepare` | src/filesystem.rs:15-17 | when the destination can be prepared it holds what it held before, or a new empty directory; a directory-only destination is then a directory; a destination that `exists()` is left as it is |
| `Filesystem.CopyEntries` | src/filesystem.rs:20-33 | the loop over the entries only panics with `Failed to copy files`; it keeps a destination directory a directory and never writes into a destination that is not one |
| `Filesystem.CopyFiles` | src/filesystem.rs:13-36 | `copy_files` panics only with `Failed to copy files`; on success the destination exists; when `create_dir_all` fails it returns `Err` with the disk unchanged; a directory-only destination that can be prepared is a directory afterwards, whatever else happens |
| `Filesystem.CopyFilesNoSource` | src/filesystem.rs:15-20 | with the empty path as source, `read_dir` fails: `copy_files` returns `Err` after preparing the destination as usual |
| `Filesystem.CopyFilesNoSourceFrame` | src/filesystem.rs:15-20 | that failing call changes nothing outside the destination |
| `Filesystem.CopyEntriesIsMerge` | src/filesystem.rs:20-33 | the loop over any duplicate-free list of entries succeeds exactly when those entries can be copied, and then leaves the merge of those entries |
| `Filesystem.CopyDirIsMerge` | src/filesystem.rs:20-35 | copying a directory succeeds exactly when `CanCopy` holds, whatever the listing order, and then leaves `Merge(src, dst)` |
| `Filesystem.CanCopyIntoEmpty` | src/filesystem.rs:28-31 | copying into a new empty directory cannot fail |
| `Filesystem.MergeHoldsSource` | src/filesystem.rs:24-31 | after a copy, every file anywhere in the source tree is at the same relative path with the same content, and every source directory exists there |
| `Filesystem.MergeKeepsRest` | src/filesystem.rs:24-32 | every destination path whose name is not in the source, or is special in it, keeps what it had |
| `Filesystem.CopyIntoEmptyIsFaithful` | src/filesystem.rs:28-31 | copied into an empty directory, the result has a file exactly where the source has one, with the same content, and a directory exactly where the source has one |
| `Filesystem.MergeIdempotent` | src/filesystem.rs:15-31 | copying the same source into the result again succeeds and changes nothing |
| `Filesystem.CopyFilesFrame` | src/filesystem.rs:13-36 | whatever its outcome, `copy_files` changes nothing outside the destination |
| `Filesystem.CopyFilesSpec` | src/filesystem.rs:13-36 | `copy_files` succeeds exactly when the destination can be created, the source is a directory and the copy can succeed; the destination then holds the merge |
| `Filesystem.CopyFilesDisjoint` | src/filesystem.rs:20-32 | for non-overlapping paths, the same in terms of the disk before the call, and the source tree is unchanged |
| `Filesystem.CopyFilesIdempotent` | src/filesystem.rs:13-36 | running `copy_files` a second time gives the same outcome and the same disk as running it once, whatever the first outcome was: a destination that could not be created, a missing source, or a copy that stopped at an entry |
| `Filesystem.MissingSourceLeavesEmptyDest` | src/filesystem.rs:15-20 | a source that is not a directory returns `Err` and leaves a new, empty destination directory behind |
| `Filesystem.CopyEntriesAppend` | src/filesystem.rs:20-33 | the loop over two lists is the loop over the first, then over the second from where the first stopped, or the first's failure |
| `Filesystem.CopyEntriesElsewhere` | src/filesystem.rs:20-33 | the loop over the entries leaves every destination entry it does not list as it was |
| `Filesystem.CopyEntriesRepeat` | src/filesystem.rs:20-33 | the loop run again on the tree it left gives the same status and tree, also after a failure: the entries before the failing one are copied to the same result and the failing one fails the same way again |
| `Filesystem.FileFailureKeepsEarlierCopies` | src/filesystem.rs:24-27 | a top-level file that cannot be written returns `Err`, and the entries before it stay copied |
| `Filesystem.SubdirFailurePanics` | src/filesystem.rs:28-31 | a failure inside a subdirectory panics with `Failed to copy files` instead of returning `Err` |
| `Filesystem.CopyFile` | src/game_saves.rs:339-340 | `fs::copy` succeeds exactly when the source is a regular file and the target can be written, and the target then holds the source's content |
| `Filesystem.GetCopyFile` | src/game_saves.rs:339-340 | `fs::copy` changes nothing but its target |
| `BackupPath.BackupKeyResolves` | src/game_saves.rs:216-217 | the formatted key `backups/<g>/<p>/<s>/` resolves to exactly four components below the working directory, the trailing `/` adding none, and names a directory only |
| `BackupPath.SplitFirst` | src/game_saves.rs:25-28 | splitting at the first `/` gives a slash-free head and the rest, or `None` for text without a slash |
| `BackupPath.ParseBackupKeyOf` | src/game_saves.rs:25-28 | the three ids can be read back from a key |
| `BackupPath.BackupKeyInjective` | src/game_saves.rs:318-321 | distinct (game, platform, save) triples give distinct keys |
| `BackupPath.BackupDirsDisjoint` | src/game_saves.rs:350-353 | the backup directories of distinct triples never lie inside each other |
| `GameSaves.FreshIds` | src/game_saves.rs:201-212 | the ids the four inserts receive are new in their tables |
| `GameSaves.AddRows` | src/game_saves.rs:201-212 | the four inserts put a game (trimmed fields), a platform (trimmed name), a location (trimmed path, empty description) and a save linking them (empty metadata) under the fresh ids, and change no other row |
| `GameSaves.AddGameSave` | src/game_saves.rs:160-221 | the catalog after an add is the four inserts, whatever the copy does; an add either ends normally or panics with `Failed to copy files` |
| `GameSaves.AddGameSaveRows` | src/game_saves.rs:201-212 | add inserts a game (trimmed fields), a platform (trimmed name), a location (trimmed path, empty description) and a save linking them (empty metadata), each under a fresh id, whatever the copy does; on disk only the new backup directory changes |
| `GameSaves.AddGameSaveCopies` | src/game_saves.rs:214-220 | the path copied is the path stored in the location row; the add succeeds exactly when the backup directory can be prepared, the live path is a directory and its copy can succeed; the backup then holds the merge of the live directory, otherwise the add panics with `Failed to copy files`; the live directory is unchanged |
| `GameSaves.AddWithoutLocation` | src/game_saves.rs:214-220 | an empty location panics with `Failed to copy files`; the backup directory is there afterwards exactly when `create_dir_all` could make it, and then holds what it held before or nothing |
| `GameSaves.AddLeavesBackupDir` | src/game_saves.rs:214-220 | whatever the copy does, a directory is at the new backup path afterwards exactly when `create_dir_all` could make one there, and otherwise the disk is unchanged |
| `GameSaves.InsertLinkedConsistent` | src/game_saves.rs:201-212 | a save inserted with a fresh game, platform and location keeps every reference valid and every location owned by one save |
| `GameSaves.AddKeepsConsistent` | src/game_saves.rs:201-212 | add keeps the catalog consistent, also when its copy fails |
| `GameSaves.EditGameSave` | src/game_saves.rs:49-141 | edit never changes the disk, the other tables or the set of game ids; it ends normally or panics with `Invalid input` having changed nothing |
| `GameSaves.EditMergesFields` | src/game_saves.rs:113-135 | each field becomes its trimmed new value if that is non-empty, and otherwise keeps its old value; other games are untouched |
| `GameSaves.EditWithoutChange` | src/game_saves.rs:117-139 | no title match, an unknown id or three blank answers change nothing; a choice that is not a number panics with `Invalid input` |
| `GameSaves.EditIdempotent` | src/game_saves.rs:113-135 | repeating an edit with the same answers changes nothing more |
| `GameSaves.RemoveSaves` | src/game_saves.rs:24-41 | the loop over the saves never touches games or platforms, and can only fail with `Failed to delete game save` |
| `GameSaves.RemoveGameSave` | src/game_saves.rs:15-47 | the game row is deleted exactly when the loop over its saves succeeds; the only failure is the panic `Failed to delete game save`, which keeps the game row; platforms are never deleted |
| `GameSaves.RemoveOne` | src/game_saves.rs:30-40 | one iteration removes the backup directory if one is there and leaves anything else at that path as it was; it deletes exactly that save row and its location row |
| `GameSaves.RemoveOneFrame` | src/game_saves.rs:30-31 | one iteration changes nothing on disk outside that save's backup directory |
| `GameSaves.RemoveSavesStatus` | src/game_saves.rs:30-31 | for rows with distinct ids, the loop succeeds exactly when every backup directory it meets may be deleted |
| `GameSaves.RemoveSavesRows` | src/game_saves.rs:37-40 | a loop that succeeds has deleted exactly the listed save rows and the location rows they refer to |
| `GameSaves.RemoveSavesPartial` | src/game_saves.rs:24-41 | the loop has deleted the save and location rows of the prefix it got through, and no others; that prefix is the whole list exactly when the loop succeeds |
| `GameSaves.RemoveSavesStops` | src/game_saves.rs:24-41 | for rows with distinct ids, the loop stops at the first backup directory that may not be deleted: the rows before it are deleted, and that row and every later one are kept |
| `GameSaves.RemoveSavesDisk` | src/game_saves.rs:30-35 | the loop changes nothing outside the listed backup directories; when it succeeds each of them that was a directory is gone, and anything else there is as it was |
| `GameSaves.SaveRowsIndexed` | src/game_saves.rs:24-28 | each row the loop handles is a save of the game, and its backup directory is named after the game |
| `GameSaves.SaveRowsOfSets` | src/game_saves.rs:21-24 | the rows name exactly the game's saves and the locations they refer to |
| `GameSaves.RemoveGameSaveSpec` | src/game_saves.rs:15-47 | remove succeeds exactly when every backup directory of the game's saves that is there may be deleted; it then has deleted the game, its saves and their locations and nothing else, keeping platforms and other games' saves; a failure is the panic `Failed to delete game save`, and the game row stays |
| `GameSaves.RemoveGameSaveDisk` | src/game_saves.rs:24-35 | remove changes the disk only inside the game's backup directories, and on success each of them that was a directory is gone |
| `GameSaves.DropSavesConsistent` | src/game_saves.rs:37-40 | deleting saves together with their own locations keeps the catalog consistent |
| `GameSaves.RemoveKeepsConsistent` | src/game_saves.rs:15-47 | remove keeps the catalog consistent, also when it panics partway |
| `GameSaves.RemoveAfterInsert` | src/game_saves.rs:15-47 | removing a game just inserted with one save succeeds exactly when its backup directory may be deleted, and then deletes exactly the rows inserted other than the platform; nothing outside that directory changes on disk |
| `GameSaves.AddThenRemove` | src/game_saves.rs:15-47 | after an add, removing the new game succeeds exactly when the new backup directory, if the add could create it, may be deleted; it then restores the catalog except for the new platform row, the game is not found, the directory the add made is gone, and the rest of the disk is as before the add |
| `Restore.RestoreFiles` | src/game_saves.rs:323-342 | the per-file loop can only fail with `Failed to copy file` |
| `Restore.RestoreSave` | src/game_saves.rs:312-357 | one save's restore fails only with one of the three restore panics, and any answer but `Y` or nothing reads no further line |
| `Restore.RestoreSaves` | src/game_saves.rs:289-358 | the loop over the game's saves fails only with one of the three restore panics |
| `Restore.RestoreGameSave` | src/game_saves.rs:243-360 | a restore never changes the catalog, and fails only with `Invalid input` or a restore panic |
| `Restore.SkippingAnswers` | src/game_saves.rs:312-357 | any answer but `Y`, nothing or `a` (including `y` and `n`) restores nothing and reads no further line |
| `Restore.RestoreAll` | src/game_saves.rs:345-357 | with `a`, the backup tree is copied into the live directory with `copy_files`, which must be a directory when the stored path ends in `/`: success exactly when that copy can succeed, then the live directory holds the merge, otherwise a panic; the backup is unchanged and no line is read |
| `Restore.RestorePerFile` | src/game_saves.rs:314-343 | with `Y` or nothing, a missing backup panics with `Failed to read directory`; otherwise one line is read per entry, and it succeeds exactly when every chosen entry can be copied, leaving each chosen entry's file in the live directory and every other entry as it was |
| `Restore.CopyFileKeepsOthers` | src/game_saves.rs:339-340 | copying one entry leaves every other entry of the backup and the live directory, and whether it can be copied, as it was |
| `Restore.RestoreFilesFrame` | src/game_saves.rs:337-341 | the per-file loop changes nothing outside the offered entries of the live directory |
| `Restore.RestoreFilesStatus` | src/game_saves.rs:323-342 | the per-file loop succeeds exactly when every chosen entry can be copied |
| `Restore.RestoreFilesCopies` | src/game_saves.rs:337-341 | after the per-file loop, each chosen entry holds the backup's content and each other entry is as it was, one line read per entry |
| `Restore.EmptyAnswerTakesAll` | src/game_saves.rs:337 | after an empty answer for the save, every entry is copied whatever the per-file answers are |
| `Restore.SkippingEverySave` | src/game_saves.rs:289-358 | when every save's answer skips it, the disk is unchanged and one line per save is read |
| `Restore.RestoreWithoutChange` | src/game_saves.rs:253-276 | no title match changes nothing; a choice that is not a number panics with `Invalid input`; an id that names no game restores nothing |

## Left out

- Prompts, `println!` messages and `flush`: output only. A `read_line` that
  fails is not modelled. End of input reads as an empty line.
- The Db query methods are not part of this model. The catalog is modelled
  only as the operations use it. Db calls never fail, so their `.expect`
  panics (`Failed to get game`, `Failed to insert game`, …) do not occur.
- Platform names are not de-duplicated: every add inserts a new platform row.
  `src/db.rs:18-25` has no uniqueness constraint.
- `get_platform` in restore is only displayed, so it is not modelled.
- A directory entry that cannot be read is not modelled, neither in
  `copy_files` nor in per-file restore. In `copy_files`, `entry?` would return
  `Err` (src/filesystem.rs:21). A nested call, add and restore with `a` turn
  that `Err` into the panic `Failed to copy files`. Per-file restore panics
  with `Failed to read directory entry` (src/game_saves.rs:325). In the model,
  listing a directory never fails part-way, so `Filesystem.CopyEntries` fails
  only where a file cannot be written or a subdirectory copy fails.
- Ids are unbounded integers. The 32-bit range of the ids is not modelled,
  except in parsing the menu choice.
- Filesystem semantics beyond the tree: permissions, symbolic links, timestamps
  and partial writes. Why `remove_dir_all` fails is not modelled; whether it
  fails is the parameter `GameSaves.Env.canDelete`.
- Filesystem.CanWriteFile: `fs::copy` overwrites a regular file, and it fails
  on a source that is not a regular file and on a directory as the target.
  The model also refuses a special entry (a device, a FIFO) as the target, so
  `copy_files` and the per-file restore fail there. On Unix, `fs::copy` opens
  such a target for writing instead, so it writes to a device and blocks on a
  FIFO.
- RemoveSaves: a `remove_dir_all` that fails part-way may already have deleted
  some of the directory's contents. The model leaves that directory whole.
- FileTree.Walk: `..` is followed in the path text, as if the component before
  it were a directory. The operating system fails instead when that component
  is missing or is not a directory.
- The source tree is read as it is when the copy starts. Copying a directory
  into itself or into its own subtree is not modelled.
- CopyFilesDisjoint: requires that source and destination do not overlap.
- CopyFilesIdempotent: requires that source and destination do not overlap.
- AddGameSaveCopies: requires that the live save directory and the new backup
  directory do not overlap.
- RestoreAll: requires that the backup and live directories do not overlap.
- RestorePerFile: requires that the backup and live directories do not overlap.
- RestoreFilesStatus: requires that the backup and live directories do not overlap.
- RestoreFilesCopies: requires that the backup and live directories do not overlap.
- RestoreWithoutChange: shows that an unknown id restores nothing only for a
  consistent catalog that has no game with the sentinel id `-1`.
- The GUI (`src/shark_gui.rs`, `src/widgets/`) and start-up (`src/main.rs`,
  `create_db`) are not part of this model.

=== FILE: backup_path.dfy ===
/** Where the backup of one save lives: `backups/<game id>/<platform id>/<save id>/`,
    relative to the working directory. Adding, removing and both restore modes
    build it from the same three ids in the same way. */
module BackupPath {
  import opened Wrappers
  import opened FileTree
  import Decimal

  /** The path string the operations format. */
  function BackupKey(game: int, platform: int, save: int): string {
    "backups/" + Decimal.Show(game) + "/" + Decimal.Show(platform) + "/" + Decimal.Show(save) + "/"
  }

  /** The backup directory of a save, seen from the working directory `cwd`:
      four components below it. */
  function BackupDir(cwd: Path, game: int, platform: int, save: int): Path {
    cwd + ["backups", Decimal.Show(game), Decimal.Show(platform), Decimal.Show(save)]
  }

  /** The formatted key, as a path relative to `cwd`, leads to `BackupDir`: the
      separators split it into exactly the four expected components, because
      no rendered id contains a `/` or is a `.` or `..`, and the trailing `/`
      adds none. That trailing `/` makes the key name a directory only. */
  lemma BackupKeyResolves(cwd: Path, game: int, platform: int, save: int)
    ensures Resolve(cwd, BackupKey(game, platform, save)) == BackupDir(cwd, game, platform, save)
    ensures NamesDirectory(BackupKey(game, platform, save))
  {
    var g := Decimal.Show(game);
    var p := Decimal.Show(platform);
    var s := Decimal.Show(save);
    var key := BackupKey(game, platform, save);
    assert key == "backups" + "/" + (g + "/" + (p + "/" + (s + "/" + "")));
    ComponentsCons(s, "");
    ComponentsCons(p, s + "/" + "");
    ComponentsCons(g, p + "/" + (s + "/" + ""));
    ComponentsCons("backups", g + "/" + (p + "/" + (s + "/" + "")));
    assert Components("") == [];
    assert Plain(["backups", g, p, s]) by {
      assert g[0] != '.' && p[0] != '.' && s[0] != '.';
    }
  }

  /** Splits `s` at its first `/`: the text before it and the text after it. */
  function SplitFirst(s: string): (r: Option<(string, string)>)
    ensures r.Some? ==> s == r.value.0 + "/" + r.value.1 && '/' !in r.value.0
    ensures r.None? ==> '/' !in s
    decreases |s|
  {
    if s == [] then None
    else if s[0] == '/' then Some(([], s[1..]))
    else match SplitFirst(s[1..])
      case None => None
      case Some((a, b)) => Some(([s[0]] + a, b))
  }

  lemma {:induction false} SplitFirstOf(w: string, s: string)
    requires '/' !in w
    ensures SplitFirst(w + "/" + s) == Some((w, s))
    decreases |w|
  {
    if w == [] {
      assert w + "/" + s == "/" + s;
    } else {
      assert (w + "/" + s)[0] == w[0] && (w + "/" + s)[1..] == w[1..] + "/" + s;
      SplitFirstOf(w[1..], s);
      assert [w[0]] + w[1..] == w;
    }
  }

  /** Reads the three ids back out of a backup key. */
  function ParseBackupKey(key: string): Option<(int, int, int)> {
    if !("backups/" <= key) then None
    else match SplitFirst(key[8..])
      case None => None
      case Some((g, r1)) => match SplitFirst(r1)
        case None => None
        case Some((p, r2)) => match SplitFirst(r2)
          case None => None
          case Some((s, r3)) =>
            if r3 != [] then None
            else match (Decimal.Parse(g), Decimal.Parse(p), Decimal.Parse(s))
              case (Some(a), Some(b), Some(c)) => Some((a, b, c))
              case _ => None
  }

  /** The key of a save names its three ids. */
  lemma ParseBackupKeyOf(game: int, platform: int, save: int)
    ensures ParseBackupKey(BackupKey(game, platform, save)) == Some((game, platform, save))
  {
    var g := Decimal.Show(game);
    var p := Decimal.Show(platform);
    var s := Decimal.Show(save);
    var key := BackupKey(game, platform, save);
    assert key[8..] == g + "/" + (p + "/" + (s + "/" + ""));
    SplitFirstOf(g, p + "/" + (s + "/" + ""));
    SplitFirstOf(p, s + "/" + "");
    SplitFirstOf(s, "");
    Decimal.ParseShow(game);
    Decimal.ParseShow(platform);
    Decimal.ParseShow(save);
  }

  /** Distinct (game, platform, save) triples have distinct backup keys. */
  lemma BackupKeyInjective(g1: int, p1: int, s1: int, g2: int, p2: int, s2: int)
    ensures BackupKey(g1, p1, s1) == BackupKey(g2, p2, s2) ==> g1 == g2 && p1 == p2 && s1 == s2
  {
    ParseBackupKeyOf(g1, p1, s1);
    ParseBackupKeyOf(g2, p2, s2);
  }

  /** The backup directories of two different saves never lie inside each
      other, so removing or writing one leaves the other alone. */
  lemma BackupDirsDisjoint(cwd: Path, g1: int, p1: int, s1: int, g2: int, p2: int, s2: int)
    requires (g1, p1, s1) != (g2, p2, s2)
    ensures Disjoint(BackupDir(cwd, g1, p1, s1), BackupDir(cwd, g2, p2, s2))
  {
    var a := BackupDir(cwd, g1, p1, s1);
    var b := BackupDir(cwd, g2, p2, s2);
    assert |a| == |b|;
    if a <= b {
      assert a == b;
      assert a[|cwd| + 1] == b[|cwd| + 1] && a[|cwd| + 2] == b[|cwd| + 2] && a[|cwd| + 3] == b[|cwd| + 3];
      Decimal.ShowInjective(g1, g2);
      Decimal.ShowInjective(p1, p2);
      Decimal.ShowInjective(s1, s2);
    }
  }
}

=== FILE: catalog.dfy ===
/** The catalog the game-save operations rely on: four tables of rows keyed by
    integer id (games, platforms, save locations, saves). Only what the
    operations use is modelled: inserts that hand out fresh ids, lookups by id,
    the saves of a game, the title search, an update and deletes by id. */
module Catalog {
  import Ids

  datatype Game = Game(title: string, publisher: string, releaseDate: string)
  datatype Platform = Platform(name: string)
  datatype Location = Location(path: string, description: string)
  datatype Save = Save(gameId: int, locationId: int, metadata: string, platformId: int)

  datatype Db = Db(
    games: map<int, Game>,
    platforms: map<int, Platform>,
    locations: map<int, Location>,
    saves: map<int, Save>)

  const EmptyDb := Db(map[], map[], map[], map[])

  /** The id a lookup of a missing row reports. */
  const NotFound: int := -1

  /** A table after an insert, and the id the new row received. */
  datatype Inserted<T> = Inserted(rows: map<int, T>, id: int)

  /** Appends `v` to a table. The id is fresh: larger than every id in use, and
      1 in an empty table, as SQLite assigns an `INTEGER PRIMARY KEY`. */
  function InsertRow<T>(rows: map<int, T>, v: T): (r: Inserted<T>)
    ensures r.id !in rows && (forall k :: k in rows ==> k < r.id)
    ensures rows == map[] ==> r.id == 1
    ensures r.rows.Keys == rows.Keys + {r.id} && r.rows[r.id] == v
    ensures forall k :: k in rows ==> r.rows[k] == rows[k]
  {
    var id := Ids.NextId(rows.Keys);
    Inserted(rows[id := v], id)
  }

  /** Removes the row `id` from a table; a missing id removes nothing. */
  function DeleteRow<T>(rows: map<int, T>, id: int): (r: map<int, T>)
    ensures r.Keys == rows.Keys - {id}
    ensures forall k :: k in r ==> r[k] == rows[k]
  {
    rows - {id}
  }

  // ---------------------------------------------------------------------------
  // Lookups

  /** The id `get_game(id)` reports: `id` itself, or `NotFound`. */
  function GameIdOf(db: Db, id: int): int {
    if id in db.games then id else NotFound
  }

  /** `get_game(id)`: the row, or the sentinel row with empty fields. */
  function GameOf(db: Db, id: int): Game {
    if id in db.games then db.games[id] else Game("", "", "")
  }

  /** `get_location(id)`: the row, or the empty sentinel row. */
  function LocationOf(db: Db, id: int): Location {
    if id in db.locations then db.locations[id] else Location("", "")
  }

  /** The ids of the saves of game `g`. */
  function SavesOf(db: Db, g: int): set<int> {
    set s | s in db.saves && db.saves[s].gameId == g
  }

  /** `get_saves_by_game_id(g)`: the saves of `g` in storage (ascending id)
      order, as the snapshot the caller iterates over. */
  function SaveIdsOf(db: Db, g: int): (r: seq<int>)
    ensures Ids.Increasing(r)
    ensures forall s :: s in r <==> s in db.saves && db.saves[s].gameId == g
  {
    Ids.Sorted(SavesOf(db, g))
  }

  /** The saves of `g` as the rows the caller holds while it works through
      them: each id with the row it had when the query ran. */
  function SaveRowsOf(db: Db, g: int): (r: seq<(int, Save)>)
    // These clauses only unfold the comprehension for the proofs about the
    // removal loop; `GameSaves.SaveRowsOfSets` says what the rows are.
    ensures |r| == |SaveIdsOf(db, g)|
    ensures forall k :: 0 <= k < |r| ==>
              r[k].0 == SaveIdsOf(db, g)[k] && r[k].0 in db.saves && r[k].1 == db.saves[r[k].0]
  {
    var ids := SaveIdsOf(db, g);
    seq(|ids|, k requires 0 <= k < |ids| => (ids[k], db.saves[ids[k]]))
  }

  /** The location rows the saves of `g` refer to. */
  function LocationsOf(db: Db, g: int): set<int> {
    set s | s in SavesOf(db, g) :: db.saves[s].locationId
  }

  /** `get_games_by_title(prefix)`: the ids of the games whose title starts with
      `prefix`, case-sensitively, in storage order. */
  function GamesByTitle(db: Db, prefix: string): (r: seq<int>)
    ensures Ids.Increasing(r)
    ensures forall g :: g in r <==> g in db.games && prefix <= db.games[g].title
  {
    Ids.Sorted(set g | g in db.games && prefix <= db.games[g].title)
  }

  /** The empty prefix finds every game, in storage order. */
  lemma GamesByEmptyTitle(db: Db)
    ensures GamesByTitle(db, "") == Ids.Sorted(db.games.Keys)
  {
    assert (set g | g in db.games && "" <= db.games[g].title) == db.games.Keys;
  }

  // ---------------------------------------------------------------------------
  // Changes

  function InsertGame(db: Db, g: Game): (r: (Db, int)) {
    var i := InsertRow(db.games, g);
    (db.(games := i.rows), i.id)
  }

  function InsertPlatform(db: Db, p: Platform): (r: (Db, int)) {
    var i := InsertRow(db.platforms, p);
    (db.(platforms := i.rows), i.id)
  }

  function InsertLocation(db: Db, l: Location): (r: (Db, int)) {
    var i := InsertRow(db.locations, l);
    (db.(locations := i.rows), i.id)
  }

  function InsertSave(db: Db, s: Save): (r: (Db, int)) {
    var i := InsertRow(db.saves, s);
    (db.(saves := i.rows), i.id)
  }

  /** `update_game`: replaces the row `id`; a missing id changes nothing. */
  function UpdateGame(db: Db, id: int, g: Game): (r: Db)
    ensures id in db.games ==> r.games.Keys == db.games.Keys && r.games[id] == g
    ensures id !in db.games ==> r == db
    ensures forall k :: k in db.games && k != id ==> r.games[k] == db.games[k]
    ensures r.platforms == db.platforms && r.locations == db.locations && r.saves == db.saves
  {
    if id in db.games then db.(games := db.games[id := g]) else db
  }

  function DeleteGame(db: Db, id: int): Db {
    db.(games := DeleteRow(db.games, id))
  }

  function DeleteSave(db: Db, id: int): Db {
    db.(saves := DeleteRow(db.saves, id))
  }

  function DeleteLocation(db: Db, id: int): Db {
    db.(locations := DeleteRow(db.locations, id))
  }

  // ---------------------------------------------------------------------------
  // Integrity

  /** Every save refers to an existing game, location and platform, and no two
      saves share a location row. The operations keep this, since they create a
      fresh location for every save and delete it together with the save. */
  ghost predicate Consistent(db: Db) {
    && (forall s :: s in db.saves ==>
          && db.saves[s].gameId in db.games
          && db.saves[s].locationId in db.locations
          && db.saves[s].platformId in db.platforms)
    && (forall s, t :: s in db.saves && t in db.saves && s != t ==>
          db.saves[s].locationId != db.saves[t].locationId)
  }

  lemma EmptyConsistent()
    ensures Consistent(EmptyDb)
  {
  }
}

=== FILE: decimal.dfy ===
/** Decimal rendering of integers, as Rust's `{}` formatting writes an `i32`
    into the backup path, and the parse that reads it back. */
module Decimal {
  import opened Wrappers

  predicate IsDigit(c: char) {
    '0' <= c <= '9'
  }

  predicate AllDigits(s: string) {
    forall i :: 0 <= i < |s| ==> IsDigit(s[i])
  }

  function DigitChar(d: int): (c: char)
    requires 0 <= d < 10
    ensures IsDigit(c)
  {
    ('0' as int + d) as char
  }

  function DigitValue(c: char): (d: int)
    requires IsDigit(c)
    ensures 0 <= d < 10
  {
    c as int - '0' as int
  }

  /** The decimal digits of `n`, most significant first, without leading zeros. */
  function Digits(n: nat): (r: string)
    ensures r != [] && AllDigits(r)
    ensures |r| > 1 ==> r[0] != '0'
  {
    if n < 10 then [DigitChar(n)] else Digits(n / 10) + [DigitChar(n % 10)]
  }

  /** The number a string of decimal digits denotes. */
  function ValueOf(s: string): nat
    requires AllDigits(s)
  {
    if s == [] then 0 else ValueOf(s[..|s| - 1]) * 10 + DigitValue(s[|s| - 1])
  }

  /** `{}` formatting of an integer: a minus sign for a negative value, then the
      digits of its magnitude. The result never contains a path separator, nor
      a dot, so it is never a `.` or `..` path component. */
  function Show(n: int): (r: string)
    ensures r != []
    ensures forall i :: 0 <= i < |r| ==> r[i] != '/' && r[i] != '.'
  {
    if n < 0 then "-" + Digits(-n) else Digits(n)
  }

  /** Reads back what `Show` writes: an optional minus sign, then digits. */
  function Parse(s: string): Option<int> {
    if |s| >= 2 && s[0] == '-' && AllDigits(s[1..]) then Some(-(ValueOf(s[1..]) as int))
    else if s != [] && AllDigits(s) then Some(ValueOf(s))
    else None
  }

  lemma {:induction false} ValueOfDigits(n: nat)
    ensures ValueOf(Digits(n)) == n
  {
    if n >= 10 {
      var r := Digits(n);
      assert r[..|r| - 1] == Digits(n / 10);
      ValueOfDigits(n / 10);
    }
  }

  /** Parsing the rendering of any integer gives the integer back. */
  lemma ParseShow(n: int)
    ensures Parse(Show(n)) == Some(n)
  {
    if n < 0 {
      ValueOfDigits(-n);
      assert Show(n)[1..] == Digits(-n);
    } else {
      ValueOfDigits(n);
    }
  }

  /** Distinct integers are rendered as distinct strings. */
  lemma ShowInjective(a: int, b: int)
    ensures Show(a) == Show(b) ==> a == b
  {
    ParseShow(a);
    ParseShow(b);
  }

  /** `k` zero digits. */
  function Zeros(k: nat): string {
    seq(k, _ => '0')
  }

  /** `d` is the decimal digits of `a` after some leading zeros, perhaps none. */
  predicate Padded(d: string, a: nat) {
    |Digits(a)| <= |d| && d == Zeros(|d| - |Digits(a)|) + Digits(a)
  }

  /** Any number of leading zeros leaves the value of a digit string unchanged. */
  lemma {:induction false} ValueOfPadded(z: nat, d: string)
    requires AllDigits(d)
    ensures AllDigits(Zeros(z) + d) && ValueOf(Zeros(z) + d) == ValueOf(d)
    decreases z
  {
    if z > 0 {
      ValueOfPadded(z - 1, d);
      assert Zeros(z) == "0" + Zeros(z - 1);
      assert Zeros(z) + d == "0" + (Zeros(z - 1) + d);
      ValueOfLeadingZero(Zeros(z - 1) + d);
    } else {
      assert Zeros(z) + d == d;
    }
  }

  /** A digit string that starts with a non-zero digit has a positive value. */
  lemma {:induction false} ValueOfPositive(d: string)
    requires d != [] && AllDigits(d) && d[0] != '0'
    ensures ValueOf(d) >= 1
    decreases |d|
  {
    if |d| > 1 {
      ValueOfPositive(d[..|d| - 1]);
    }
  }

  /** A digit string without a leading zero is the rendering of its value. */
  lemma {:induction false} DigitsOfValue(d: string)
    requires d != [] && AllDigits(d) && (|d| > 1 ==> d[0] != '0')
    ensures Digits(ValueOf(d)) == d
    decreases |d|
  {
    if |d| > 1 {
      var p := d[..|d| - 1];
      var x := DigitValue(d[|d| - 1]);
      DigitsOfValue(p);
      ValueOfPositive(p);
      var v := ValueOf(d);
      assert v == ValueOf(p) * 10 + x;
      assert v / 10 == ValueOf(p) && v % 10 == x;
      assert d == p + [d[|d| - 1]];
    }
  }

  /** Every digit string is the rendering of its value after leading zeros. */
  lemma {:induction false} PaddedValue(d: string)
    requires d != [] && AllDigits(d)
    ensures Padded(d, ValueOf(d))
    decreases |d|
  {
    if |d| > 1 && d[0] == '0' {
      var rest := d[1..];
      assert d == "0" + rest;
      ValueOfLeadingZero(rest);
      PaddedValue(rest);
      var k := |rest| - |Digits(ValueOf(d))|;
      assert Zeros(k + 1) == "0" + Zeros(k);
    } else {
      DigitsOfValue(d);
      assert Zeros(0) == [];
    }
  }

  const I32Min: int := -0x8000_0000
  const I32Max: int := 0x7fff_ffff

  predicate InI32(n: int) {
    I32Min <= n <= I32Max
  }

  /** `str::parse::<i32>`: an optional `+` or `-` sign, then at least one
      decimal digit, and the value must fit in 32 bits; anything else is an
      error. */
  function ParseI32(s: string): (r: Option<int>)
    ensures r.Some? ==> InI32(r.value)
    ensures r.Some? ==> s != [] && (IsDigit(s[0]) || s[0] == '+' || s[0] == '-')
  {
    var signed := s != [] && (s[0] == '+' || s[0] == '-');
    var body := if signed then s[1..] else s;
    if body == [] || !AllDigits(body) then None
    else
      var v := if signed && s[0] == '-' then -(ValueOf(body) as int) else ValueOf(body) as int;
      if InI32(v) then Some(v) else None
  }

  /** A 32-bit value written by `{}` parses back as itself. */
  lemma ParseI32Show(n: int)
    requires InI32(n)
    ensures ParseI32(Show(n)) == Some(n)
  {
    if n < 0 {
      ValueOfDigits(-n);
      assert Show(n)[1..] == Digits(-n);
    } else {
      ValueOfDigits(n);
    }
  }

  /** A leading zero adds nothing to the value of a digit string. */
  lemma {:induction false} ValueOfLeadingZero(d: string)
    requires AllDigits(d)
    ensures AllDigits("0" + d) && ValueOf("0" + d) == ValueOf(d)
    decreases |d|
  {
    if d != [] {
      var z := "0" + d;
      assert z[..|z| - 1] == "0" + d[..|d| - 1] && z[|z| - 1] == d[|d| - 1];
      ValueOfLeadingZero(d[..|d| - 1]);
    } else {
      assert "0"[..0] == [];
    }
  }

  /** The parse is lenient in the ways `str::parse::<i32>` is: a `+` sign and
      leading zeros leave the value unchanged, for every digit string, while
      a sign with no digits after it is rejected. */
  lemma ParseI32Lenient(d: string)
    requires d != [] && AllDigits(d)
    ensures ParseI32("+" + d) == ParseI32(d)
    ensures ParseI32("0" + d) == ParseI32(d)
    ensures ParseI32("+") == None && ParseI32("-") == None
  {
    assert ("+" + d)[1..] == d;
    ValueOfLeadingZero(d);
  }

  /** What `parse::<i32>` accepts: a result `n` comes from an optional sign,
      then the decimal rendering of the magnitude of `n` after leading zeros,
      and a minus sign only on a value that is not positive. Text with
      anything else, such as a non-digit after the sign, is rejected. */
  lemma ParseI32Sound(s: string, n: int)
    requires ParseI32(s) == Some(n)
    ensures InI32(n)
    ensures s[0] == '-' ==> n <= 0 && Padded(s[1..], -n)
    ensures s[0] == '+' ==> n >= 0 && Padded(s[1..], n)
    ensures s[0] != '-' && s[0] != '+' ==> n >= 0 && Padded(s, n)
  {
    if s[0] == '-' || s[0] == '+' {
      PaddedValue(s[1..]);
    } else {
      PaddedValue(s);
    }
  }

  /** A sign followed by digits parses to the signed value of the digits
      exactly when that value fits in 32 bits. */
  lemma ParseI32Signed(sign: string, body: string)
    requires sign == "" || sign == "+" || sign == "-"
    requires body != [] && AllDigits(body)
    ensures var v := if sign == "-" then -(ValueOf(body) as int) else ValueOf(body) as int;
            ParseI32(sign + body) == if InI32(v) then Some(v) else None
  {
    var t := sign + body;
    if sign != "" {
      assert t[0] == sign[0] && t[1..] == body;
    } else {
      assert t == body && IsDigit(t[0]);
    }
  }

  /** Every text of that shape parses to its value exactly when the value fits
      in 32 bits; a value outside the range is rejected, never wrapped around. */
  lemma ParseI32Padded(sign: string, z: nat, a: nat)
    requires sign == "" || sign == "+" || sign == "-"
    ensures var v := if sign == "-" then -(a as int) else a as int;
            ParseI32(sign + Zeros(z) + Digits(a)) == if InI32(v) then Some(v) else None
  {
    var body := Zeros(z) + Digits(a);
    ValueOfPadded(z, Digits(a));
    ValueOfDigits(a);
    assert sign + Zeros(z) + Digits(a) == sign + body;
    ParseI32Signed(sign, body);
  }

  /** Appending a digit multiplies the value by ten and adds the digit. */
  lemma ValueOfSnoc(d: string, c: char)
    requires AllDigits(d) && IsDigit(c)
    ensures AllDigits(d + [c]) && ValueOf(d + [c]) == ValueOf(d) * 10 + DigitValue(c)
  {
    assert (d + [c])[..|d|] == d;
  }

  /** One past the largest 32-bit value is rejected. */
  lemma ParseI32RejectsOverflow()
    ensures ParseI32("2147483648") == None
  {
    var s := "2";
    assert ValueOf(s) == 2;
    ValueOfSnoc(s, '1');
    s := s + ['1'];
    assert ValueOf(s) == 21;
    ValueOfSnoc(s, '4');
    s := s + ['4'];
    assert ValueOf(s) == 214;
    ValueOfSnoc(s, '7');
    s := s + ['7'];
    assert ValueOf(s) == 2147;
    ValueOfSnoc(s, '4');
    s := s + ['4'];
    assert ValueOf(s) == 21474;
    ValueOfSnoc(s, '8');
    s := s + ['8'];
    assert ValueOf(s) == 214748;
    ValueOfSnoc(s, '3');
    s := s + ['3'];
    assert ValueOf(s) == 2147483;
    ValueOfSnoc(s, '6');
    s := s + ['6'];
    assert ValueOf(s) == 21474836;
    ValueOfSnoc(s, '4');
    s := s + ['4'];
    assert ValueOf(s) == 214748364;
    ValueOfSnoc(s, '8');
    s := s + ['8'];
    assert ValueOf(s) == 2147483648;
    assert s == "2147483648";
    ParseI32Signed("", s);
  }

  /** A value that a 32-bit wrap-around would turn into 1 is rejected too. */
  lemma ParseI32RejectsWrap()
    ensures ParseI32("4294967297") == None
  {
    var s := "4";
    assert ValueOf(s) == 4;
    ValueOfSnoc(s, '2');
    s := s + ['2'];
    assert ValueOf(s) == 42;
    ValueOfSnoc(s, '9');
    s := s + ['9'];
    assert ValueOf(s) == 429;
    ValueOfSnoc(s, '4');
    s := s + ['4'];
    assert ValueOf(s) == 4294;
    ValueOfSnoc(s, '9');
    s := s + ['9'];
    assert ValueOf(s) == 42949;
    ValueOfSnoc(s, '6');
    s := s + ['6'];
    assert ValueOf(s) == 429496;
    ValueOfSnoc(s, '7');
    s := s + ['7'];
    assert ValueOf(s) == 4294967;
    ValueOfSnoc(s, '2');
    s := s + ['2'];
    assert ValueOf(s) == 42949672;
    ValueOfSnoc(s, '9');
    s := s + ['9'];
    assert ValueOf(s) == 429496729;
    ValueOfSnoc(s, '7');
    s := s + ['7'];
    assert ValueOf(s) == 4294967297;
    assert s == "4294967297";
    ParseI32Signed("", s);
  }
}

=== FILE: file_tree.dfy ===
/** The disk as an immutable tree. A directory maps names to entries; a regular
    file holds its bytes; `Special` stands for every entry that is neither (a
    device, a socket, a FIFO). A path is the sequence of names from the root. */
module FileTree {
  import opened Wrappers

  type Name = string
  type Path = seq<Name>
  type Bytes = seq<bv8>

  datatype Node =
    | File(content: Bytes)
    | Dir(entries: map<Name, Node>)
    | Special

  const EmptyDir: Node := Dir(map[])

  /** The entry at path `p` below `t`, if there is one. */
  function Get(t: Node, p: Path): Option<Node>
    decreases |p|
  {
    if p == [] then Some(t)
    else if t.Dir? && p[0] in t.entries then Get(t.entries[p[0]], p[1..])
    else None
  }

  /** `Path::exists`. */
  predicate Exists(t: Node, p: Path) {
    Get(t, p).Some?
  }

  /** `Path::is_dir`. */
  predicate IsDirAt(t: Node, p: Path) {
    Get(t, p).Some? && Get(t, p).value.Dir?
  }

  /** Neither path lies inside the other, so writing below one cannot change
      what is found at the other. */
  predicate Disjoint(p: Path, q: Path) {
    !(p <= q) && !(q <= p)
  }

  lemma {:induction false} GetConcat(t: Node, p: Path, q: Path)
    ensures Get(t, p + q) == (if Get(t, p).Some? then Get(Get(t, p).value, q) else None)
    decreases |p|
  {
    if p == [] {
      assert p + q == q;
    } else {
      assert p + q != [] && (p + q)[0] == p[0] && (p + q)[1..] == p[1..] + q;
      if t.Dir? && p[0] in t.entries {
        GetConcat(t.entries[p[0]], p[1..], q);
      }
    }
  }

  /** Replaces the entry at the existing path `p` by `v`. */
  function Update(t: Node, p: Path, v: Node): (r: Node)
    requires Exists(t, p)
    ensures Get(r, p) == Some(v)
    decreases |p|
  {
    if p == [] then v
    else Dir(t.entries[p[0] := Update(t.entries[p[0]], p[1..], v)])
  }

  /** What an update leaves visible: below `p` the new entry, and at every path
      disjoint from `p` exactly what was there before. */
  lemma {:induction false} GetUpdate(t: Node, p: Path, v: Node, q: Path)
    requires Exists(t, p)
    ensures p <= q ==> Get(Update(t, p, v), q) == Get(v, q[|p|..])
    ensures Disjoint(p, q) ==> Get(Update(t, p, v), q) == Get(t, q)
    decreases |p|
  {
    if p != [] && q != [] && p[0] == q[0] {
      GetUpdate(t.entries[p[0]], p[1..], v, q[1..]);
      assert p <= q ==> q[1..][|p[1..]|..] == q[|p|..];
      assert p <= q <==> p[1..] <= q[1..];
      assert q <= p <==> q[1..] <= p[1..];
    }
  }

  /** Writing back what is already there changes nothing. */
  lemma {:induction false} UpdateUnchanged(t: Node, p: Path)
    requires Exists(t, p)
    ensures Update(t, p, Get(t, p).value) == t
    decreases |p|
  {
    if p != [] {
      UpdateUnchanged(t.entries[p[0]], p[1..]);
    }
  }

  /** `fs::create_dir_all(p)`: creates `p` and every missing ancestor as empty
      directories. An existing directory is left as it is. */
  function MkdirAll(t: Node, p: Path): (r: Option<Node>)
    ensures r.Some? ==> IsDirAt(r.value, p)
    ensures r.Some? && Get(t, p).None? ==> Get(r.value, p) == Some(EmptyDir)
    ensures IsDirAt(t, p) ==> r == Some(t)
    ensures r.Some? && Exists(t, p) ==> IsDirAt(t, p)
    decreases |p|
  {
    if p == [] then (if t.Dir? then Some(t) else None)
    else if !t.Dir? then None
    else
      var child := if p[0] in t.entries then t.entries[p[0]] else EmptyDir;
      match MkdirAll(child, p[1..])
      case None => None
      case Some(c) =>
        assert p[0] in t.entries && c == child ==> t.entries[p[0] := c] == t.entries;
        Some(Dir(t.entries[p[0] := c]))
  }

  lemma {:induction false} MkdirAllInEmpty(p: Path)
    ensures MkdirAll(EmptyDir, p).Some?
    decreases |p|
  {
    if p != [] {
      MkdirAllInEmpty(p[1..]);
    }
  }

  /** `create_dir_all` fails exactly when `p` or one of its ancestors exists and
      is not a directory. */
  lemma {:induction false} MkdirAllFails(t: Node, p: Path)
    ensures MkdirAll(t, p).None? <==>
            exists k :: 0 <= k <= |p| && Get(t, p[..k]).Some? && !Get(t, p[..k]).value.Dir?
    decreases |p|
  {
    assert p[..0] == [];
    if p == [] || !t.Dir? {
    } else if p[0] !in t.entries {
      MkdirAllInEmpty(p[1..]);
      forall k | 1 <= k <= |p|
        ensures Get(t, p[..k]).None?
      {
        assert p[..k][0] == p[0];
      }
    } else {
      var child := t.entries[p[0]];
      MkdirAllFails(child, p[1..]);
      forall k | 1 <= k <= |p|
        ensures Get(t, p[..k]) == Get(child, p[1..][..k - 1])
      {
        assert p[..k][0] == p[0] && p[..k][1..] == p[1..][..k - 1];
      }
      if MkdirAll(t, p).None? {
        var k :| 0 <= k <= |p| - 1 && Get(child, p[1..][..k]).Some? && !Get(child, p[1..][..k]).value.Dir?;
        assert Get(t, p[..k + 1]) == Get(child, p[1..][..k]);
      } else if exists k :: 0 <= k <= |p| && Get(t, p[..k]).Some? && !Get(t, p[..k]).value.Dir? {
        var k :| 0 <= k <= |p| && Get(t, p[..k]).Some? && !Get(t, p[..k]).value.Dir?;
        assert k >= 1;
        assert Get(t, p[..k]) == Get(child, p[1..][..k - 1]);
      }
    }
  }

  /** `create_dir_all` touches nothing disjoint from the path it creates. */
  lemma {:induction false} GetMkdirAll(t: Node, p: Path, q: Path)
    requires MkdirAll(t, p).Some? && Disjoint(p, q)
    ensures Get(MkdirAll(t, p).value, q) == Get(t, q)
    decreases |p|
  {
    if p[0] == q[0] {
      var child := if p[0] in t.entries then t.entries[p[0]] else EmptyDir;
      assert p[1..] <= q[1..] ==> p <= q;
      assert q[1..] <= p[1..] ==> q <= p;
      GetMkdirAll(child, p[1..], q[1..]);
    }
  }

  function Parent(p: Path): Path
    requires p != []
  {
    p[..|p| - 1]
  }

  function Last(p: Path): Name
    requires p != []
  {
    p[|p| - 1]
  }

  lemma ParentHolds(t: Node, p: Path)
    requires p != [] && Exists(t, p)
    ensures IsDirAt(t, Parent(p)) && Last(p) in Get(t, Parent(p)).value.entries
    ensures Get(t, p) == Some(Get(t, Parent(p)).value.entries[Last(p)])
  {
    assert Parent(p) + [Last(p)] == p;
    GetConcat(t, Parent(p), [Last(p)]);
  }

  /** `fs::remove_dir_all(p)`: the entry at `p`, with everything below it, is
      gone afterwards. */
  function Remove(t: Node, p: Path): (r: Node)
    requires p != [] && Exists(t, p)
    ensures Get(r, p) == None
  {
    ParentHolds(t, p);
    var d := Get(t, Parent(p)).value;
    var r := Update(t, Parent(p), Dir(d.entries - {Last(p)}));
    GetUpdate(t, Parent(p), Dir(d.entries - {Last(p)}), p);
    assert p[|Parent(p)|..] == [Last(p)];
    r
  }

  /** Removing `p` leaves every path disjoint from it as it was. */
  lemma GetRemove(t: Node, p: Path, q: Path)
    requires p != [] && Exists(t, p) && Disjoint(p, q)
    ensures Get(Remove(t, p), q) == Get(t, q)
  {
    ParentHolds(t, p);
    var par := Parent(p);
    var d := Get(t, par).value;
    var nd := Dir(d.entries - {Last(p)});
    GetUpdate(t, par, nd, q);
    assert p == par + [Last(p)];
    if !Disjoint(par, q) {
      assert q <= par ==> q <= p;
      assert par <= q;
      var rest := q[|par|..];
      assert q == par + rest;
      assert rest == [] ==> q <= p;
      assert rest != [] && rest[0] == Last(p) ==> p <= q;
      GetConcat(t, par, rest);
    }
  }

  /** Writes `v` under the name `n` in the existing directory at `dir`. */
  function Put(t: Node, dir: Path, n: Name, v: Node): (r: Node)
    requires IsDirAt(t, dir)
    ensures Get(r, dir + [n]) == Some(v)
  {
    var d := Get(t, dir).value;
    var r := Update(t, dir, Dir(d.entries[n := v]));
    GetUpdate(t, dir, Dir(d.entries[n := v]), dir + [n]);
    assert (dir + [n])[|dir|..] == [n];
    r
  }

  /** A write under `dir + [n]` leaves every path disjoint from it as it was. */
  lemma GetPut(t: Node, dir: Path, n: Name, v: Node, q: Path)
    requires IsDirAt(t, dir) && Disjoint(dir + [n], q)
    ensures Get(Put(t, dir, n, v), q) == Get(t, q)
  {
    var d := Get(t, dir).value;
    GetUpdate(t, dir, Dir(d.entries[n := v]), q);
    if !Disjoint(dir, q) {
      assert q <= dir ==> q <= dir + [n];
      var rest := q[|dir|..];
      assert q == dir + rest;
      assert rest == [] ==> q <= dir + [n];
      assert rest != [] && rest[0] == n ==> dir + [n] <= q;
      GetConcat(t, dir, rest);
    }
  }

  /** What a write under `dir + [n]` does to `dir` itself: the directory gains
      or replaces the entry `n`. */
  lemma GetPutDir(t: Node, dir: Path, n: Name, v: Node)
    requires IsDirAt(t, dir)
    ensures Get(Put(t, dir, n, v), dir) == Some(Dir(Get(t, dir).value.entries[n := v]))
  {
    var d := Get(t, dir).value;
    GetUpdate(t, dir, Dir(d.entries[n := v]), dir);
    assert dir[|dir|..] == [];
  }

  /** Entries of two disjoint directories are disjoint. */
  lemma DisjointExtend(a: Path, b: Path, x: Name, y: Name)
    requires Disjoint(a, b)
    ensures Disjoint(a + [x], b + [y])
  {
    assert forall i :: 0 <= i < |a| ==> (a + [x])[i] == a[i];
    assert forall i :: 0 <= i < |b| ==> (b + [y])[i] == b[i];
    assert a + [x] <= b + [y] ==> a <= b;
    assert b + [y] <= a + [x] ==> b <= a;
  }

  /** Two different entries of one directory are disjoint. */
  lemma DisjointSiblings(a: Path, x: Name, y: Name)
    requires x != y
    ensures Disjoint(a + [x], a + [y])
  {
    assert (a + [x])[|a|] == x && (a + [y])[|a|] == y;
  }

  /** The components `Path::new(s)` yields for a path string: the non-empty
      segments between `/` separators. */
  function Components(s: string): (r: Path)
    ensures forall i :: 0 <= i < |r| ==> r[i] != [] && '/' !in r[i]
  {
    Segments(s, [])
  }

  /** The components of `s`, the first of which starts with the pending `cur`. */
  function Segments(s: string, cur: string): (r: Path)
    requires '/' !in cur
    ensures forall i :: 0 <= i < |r| ==> r[i] != [] && '/' !in r[i]
    decreases |s|
  {
    if s == [] then (if cur == [] then [] else [cur])
    else if s[0] == '/' then (if cur == [] then [] else [cur]) + Segments(s[1..], [])
    else Segments(s[1..], cur + [s[0]])
  }

  lemma {:induction false} SegmentsWord(w: string, s: string, cur: string)
    requires '/' !in cur && '/' !in w
    ensures Segments(w + s, cur) == Segments(s, cur + w)
    decreases |w|
  {
    if w != [] {
      assert (w + s)[0] == w[0] && (w + s)[1..] == w[1..] + s;
      SegmentsWord(w[1..], s, cur + [w[0]]);
      assert cur + [w[0]] + w[1..] == cur + w;
    } else {
      assert w + s == s && cur + w == cur;
    }
  }

  /** A non-empty word followed by a separator contributes exactly one component. */
  lemma ComponentsCons(w: string, s: string)
    requires w != [] && '/' !in w
    ensures Components(w + "/" + s) == [w] + Components(s)
  {
    assert w + "/" + s == w + ("/" + s);
    SegmentsWord(w, "/" + s, []);
    assert [] + w == w;
    assert ("/" + s)[0] == '/' && ("/" + s)[1..] == s;
  }

  /** No component is `.` or `..`: every name goes one level down. */
  predicate Plain(p: Path) {
    forall i :: 0 <= i < |p| ==> p[i] != "." && p[i] != ".."
  }

  /** Follows the components of a path string from the directory `at`: `.`
      stays where it is, `..` goes up to the parent (the root is its own
      parent), any other name goes down. */
  function Walk(at: Path, parts: Path): (r: Path)
    ensures Plain(at) ==> Plain(r)
    ensures Plain(parts) ==> r == at + parts
    decreases |parts|
  {
    if parts == [] then at
    else if parts[0] == "." then Walk(at, parts[1..])
    else if parts[0] == ".." then Walk(if at == [] then [] else Parent(at), parts[1..])
    else
      assert Plain(at) ==> Plain(at + [parts[0]]);
      assert Plain(parts) ==> Plain(parts[1..]) && at + [parts[0]] + parts[1..] == at + parts;
      Walk(at + [parts[0]], parts[1..])
  }

  /** Where a path string leads from the working directory `cwd`: an absolute
      string from the root, a relative one from `cwd`, following its `.` and
      `..` components. The result is a plain path whenever `cwd` is. */
  function Resolve(cwd: Path, s: string): (r: Path)
    ensures Plain(cwd) || (s != [] && s[0] == '/') ==> Plain(r)
  {
    Walk(if s != [] && s[0] == '/' then [] else cwd, Components(s))
  }

  /** The empty path string stands for the working directory. */
  lemma ResolveEmpty(cwd: Path)
    ensures Resolve(cwd, "") == cwd
  {
    assert Components("") == [];
  }

  /** Whether POSIX resolves the path string only to a directory: it ends in
      `/`, or its last component is `.` or `..`. `Path::exists` on such a
      string is false for anything but a directory. */
  predicate NamesDirectory(s: string) {
    var c := Components(s);
    (s != [] && s[|s| - 1] == '/') || (c != [] && (c[|c| - 1] == "." || c[|c| - 1] == ".."))
  }
}

=== FILE: filesystem.dfy ===
/** `Filesystem::copy_files`: the recursive copy of a directory tree, modelled as
    a function from the disk before to the disk after, and checked against a
    declarative description of the tree it leaves behind (`Merge`). */
module Filesystem {
  import opened Wrappers
  import opened FileTree
  import opened Seqs

  /** The order in which `fs::read_dir` yields the entries of a directory. The
      operating system does not fix it, so the model takes it as a parameter. */
  type Lister = map<Name, Node> -> seq<Name>

  /** `names` lists every entry of `m` exactly once. */
  ghost predicate Lists(names: seq<Name>, m: map<Name, Node>) {
    && Distinct(names)
    && (forall n :: n in names <==> n in m)
  }

  /** A directory listing as `read_dir` gives it: each entry once. */
  ghost predicate ValidLister(order: Lister) {
    forall m :: Lists(order(m), m)
  }

  /** How a filesystem operation ends: normally, with an `Err` returned to the
      caller, or with a panic raised by an `.expect` on an error. */
  datatype Status = Ok | IoError | Panic(message: string)

  /** The status of a copy and the tree it leaves behind, also when it stops
      early: nothing it already wrote is rolled back. */
  datatype CopyResult = CopyResult(status: Status, tree: Node)

  /** The message of the `.expect` on a nested `copy_files`. */
  const CopyPanic := "Failed to copy files"

  /** Whether `fs::copy` can write a regular file named `n` into `dst`: `dst`
      must be a directory, and `n` must be free or name a regular file, which is
      then overwritten. Refusing a special entry as the target is a choice of
      the model: on Unix `fs::copy` would open it for writing. */
  predicate CanWriteFile(dst: Node, n: Name) {
    dst.Dir? && (n !in dst.entries || dst.entries[n].File?)
  }

  /** The directory the recursive call copies into: the existing entry `n` of
      `dst`, or a new empty directory when there is none. */
  function Child(dst: Node, n: Name): Node
    requires dst.Dir?
  {
    if n in dst.entries then dst.entries[n] else EmptyDir
  }

  /** The loop of `copy_files` over the entries `names` of the source directory
      `src`, writing into `dst`. A regular file is copied under its own name, a
      directory is copied by a recursive call whose error the `.expect` turns
      into a panic, anything else is skipped. The first failure ends the loop.
      The only panic is the one of that `.expect`; a destination that is a
      directory stays one, and one that is not is never written. */
  function CopyEntries(src: Node, names: seq<Name>, dst: Node, order: Lister): (r: CopyResult)
    requires src.Dir?
    ensures r.status.Panic? ==> r.status == Panic(CopyPanic)
    ensures dst.Dir? ==> r.tree.Dir?
    ensures !dst.Dir? ==> r.tree == dst
    decreases src, |names|
  {
    if names == [] then CopyResult(Ok, dst)
    else
      var n := names[0];
      if n !in src.entries then CopyEntries(src, names[1..], dst, order)
      else match src.entries[n]
        case Special => CopyEntries(src, names[1..], dst, order)
        case File(c) =>
          if CanWriteFile(dst, n) then CopyEntries(src, names[1..], Dir(dst.entries[n := File(c)]), order)
          else CopyResult(IoError, dst)
        case Dir(m) =>
          if !dst.Dir? then CopyResult(Panic(CopyPanic), dst)
          else
            var inner := CopyEntries(src.entries[n], order(m), Child(dst, n), order);
            var dst' := Dir(dst.entries[n := inner.tree]);
            if inner.status.Ok? then CopyEntries(src, names[1..], dst', order)
            else CopyResult(Panic(CopyPanic), dst')
  }

  /** Copies the directory `src` into the existing entry `dst`. */
  function CopyDir(src: Node, dst: Node, order: Lister): CopyResult
    requires src.Dir?
  {
    CopyEntries(src, order(src.entries), dst, order)
  }

  /** `Path::exists` on the destination string: anything at the path counts,
      unless the string names a directory only (`dirOnly`, see
      `FileTree.NamesDirectory`), when only a directory does. */
  predicate ExistsAs(disk: Node, dest: Path, dirOnly: bool) {
    if dirOnly then IsDirAt(disk, dest) else Exists(disk, dest)
  }

  /** The first step of `copy_files`: `create_dir_all(dest)` unless `dest`
      already exists. Afterwards the destination holds what it held before, or
      a new empty directory; a directory-only destination is a directory. */
  function Prepare(disk: Node, dest: Path, dirOnly: bool): (r: Option<Node>)
    ensures r.Some? ==> Get(r.value, dest) == Some(DestBefore(disk, dest))
    ensures dirOnly && r.Some? ==> IsDirAt(r.value, dest)
    ensures ExistsAs(disk, dest, dirOnly) ==> r == Some(disk)
  {
    if ExistsAs(disk, dest, dirOnly) then Some(disk) else MkdirAll(disk, dest)
  }

  /** `Filesystem::copy_files(source, dest)`, with `dirOnly` telling whether the
      destination string names a directory only. The destination is prepared
      first; a source that is not a directory then fails `read_dir`; otherwise
      the source tree, as it is at that moment, is copied in. The only panic
      is the nested `.expect`; a destination that cannot be prepared leaves
      the disk as it was; and a directory-only destination that can be
      prepared is a directory afterwards, even when the copy fails. */
  function CopyFiles(disk: Node, source: Path, dest: Path, dirOnly: bool, order: Lister): (r: CopyResult)
    ensures r.status.Panic? ==> r.status == Panic(CopyPanic)
    ensures r.status.Ok? ==> Exists(r.tree, dest)
    ensures Prepare(disk, dest, dirOnly).None? ==> r.tree == disk && r.status == IoError
    ensures dirOnly && Prepare(disk, dest, dirOnly).Some? ==> IsDirAt(r.tree, dest)
  {
    var prepared := Prepare(disk, dest, dirOnly);
    if prepared.None? then CopyResult(IoError, disk)
    else
      var d := prepared.value;
      if !IsDirAt(d, source) then CopyResult(IoError, d)
      else
        var c := CopyDir(Get(d, source).value, Get(d, dest).value, order);
        CopyResult(c.status, Update(d, dest, c.tree))
  }

  /** What the destination held before the copy, as `copy_files` finds it once
      it has created a missing destination. */
  function DestBefore(disk: Node, dest: Path): Node {
    if Exists(disk, dest) then Get(disk, dest).value else EmptyDir
  }

  /** `copy_files` with the empty path string as its source: the destination
      is prepared as usual, then `read_dir("")` fails. */
  function CopyFilesNoSource(disk: Node, dest: Path, dirOnly: bool): (r: CopyResult)
    ensures r.status == IoError
    ensures Prepare(disk, dest, dirOnly).None? ==> r.tree == disk
    ensures Prepare(disk, dest, dirOnly).Some? ==> Get(r.tree, dest) == Some(DestBefore(disk, dest))
  {
    var prepared := Prepare(disk, dest, dirOnly);
    CopyResult(IoError, if prepared.Some? then prepared.value else disk)
  }

  // ---------------------------------------------------------------------------
  // The reference: what a successful copy produces, independent of the order

  /** The entries of a directory that `copy_files` acts on. */
  function Copied(m: map<Name, Node>): set<Name> {
    set n | n in m && !m[n].Special?
  }

  /** Copying entry `n` of `src` into `dst` cannot fail. */
  predicate EntryCopies(src: Node, dst: Node, n: Name)
    requires src.Dir? && n in src.entries
    decreases src, 0
  {
    match src.entries[n]
    case Special => true
    case File(_) => CanWriteFile(dst, n)
    case Dir(m) => dst.Dir? && CopiesOn(src.entries[n], Child(dst, n), m.Keys)
  }

  /** Copying the entries `ks` of `src` into `dst` cannot fail. */
  predicate CopiesOn(src: Node, dst: Node, ks: set<Name>)
    requires src.Dir?
    decreases src, 1
  {
    forall n :: n in ks && n in src.entries ==> EntryCopies(src, dst, n)
  }

  /** Copying all of `src` into `dst` cannot fail: no source file meets a
      directory or special entry of the same name, and no source directory
      meets a destination that cannot hold what it must receive. */
  predicate CanCopy(src: Node, dst: Node)
    requires src.Dir?
  {
    CopiesOn(src, dst, src.entries.Keys)
  }

  function MergeEntry(src: Node, dst: Node, n: Name): Node
    requires src.Dir? && dst.Dir? && n in Copied(src.entries)
    decreases src, 0
  {
    if src.entries[n].File? then src.entries[n]
    else MergeOn(src.entries[n], Child(dst, n), src.entries[n].entries.Keys)
  }

  /** `dst` after the entries `ks` of `src` are copied in: each copied name holds
      the source file or the merge of the source directory, every other name
      keeps what `dst` had. */
  function MergeOn(src: Node, dst: Node, ks: set<Name>): Node
    requires src.Dir?
    decreases src, 1
  {
    if !dst.Dir? then dst
    else Dir(map n | n in dst.entries.Keys + (Copied(src.entries) * ks) ::
               if n in ks && n in Copied(src.entries) then MergeEntry(src, dst, n) else dst.entries[n])
  }

  /** `dst` after all of `src` is copied in. */
  function Merge(src: Node, dst: Node): Node
    requires src.Dir?
  {
    MergeOn(src, dst, src.entries.Keys)
  }

  // ---------------------------------------------------------------------------
  // The loop computes the reference

  lemma MergeOnNothing(src: Node, dst: Node)
    requires src.Dir?
    ensures MergeOn(src, dst, {}) == dst
  {
    if dst.Dir? {
      assert MergeOn(src, dst, {}).entries == dst.entries;
    }
  }

  /** A skipped entry adds nothing to the merge. */
  lemma MergeOnSkip(src: Node, dst: Node, n: Name, ks: set<Name>)
    requires src.Dir? && n in src.entries && src.entries[n].Special?
    ensures MergeOn(src, dst, ks + {n}) == MergeOn(src, dst, ks)
  {
    if dst.Dir? {
      assert Copied(src.entries) * (ks + {n}) == Copied(src.entries) * ks;
      assert MergeOn(src, dst, ks + {n}).entries == MergeOn(src, dst, ks).entries;
    }
  }

  /** Writing the merged entry `n` and then merging the rest is merging all. */
  lemma MergeOnStep(src: Node, dst: Node, n: Name, ks: set<Name>)
    requires src.Dir? && dst.Dir? && n in Copied(src.entries) && n !in ks
    ensures MergeOn(src, Dir(dst.entries[n := MergeEntry(src, dst, n)]), ks) == MergeOn(src, dst, ks + {n})
  {
    var dst1 := Dir(dst.entries[n := MergeEntry(src, dst, n)]);
    forall k | k != n && k in Copied(src.entries)
      ensures MergeEntry(src, dst1, k) == MergeEntry(src, dst, k)
    {
      assert Child(dst1, k) == Child(dst, k);
    }
    assert MergeOn(src, dst1, ks).entries == MergeOn(src, dst, ks + {n}).entries;
  }

  /** Whether the entries `ks` copy depends on `dst` only at those names. */
  lemma CopiesOnFrame(src: Node, dst: Node, n: Name, v: Node, ks: set<Name>)
    requires src.Dir? && dst.Dir? && n !in ks
    ensures CopiesOn(src, Dir(dst.entries[n := v]), ks) == CopiesOn(src, dst, ks)
  {
    var dst1 := Dir(dst.entries[n := v]);
    forall k | k in ks && k in src.entries
      ensures EntryCopies(src, dst1, k) == EntryCopies(src, dst, k)
    {
      assert Child(dst1, k) == Child(dst, k);
    }
  }

  /** The loop over any duplicate-free listing of entries succeeds exactly when
      those entries can all be copied, and then leaves their merge. */
  lemma {:induction false} CopyEntriesIsMerge(src: Node, names: seq<Name>, dst: Node, order: Lister)
    requires src.Dir? && ValidLister(order)
    requires Distinct(names)
    requires forall i :: 0 <= i < |names| ==> names[i] in src.entries
    ensures CopyEntries(src, names, dst, order).status.Ok? <==> CopiesOn(src, dst, set n | n in names)
    ensures CopyEntries(src, names, dst, order).status.Ok? ==>
            CopyEntries(src, names, dst, order).tree == MergeOn(src, dst, set n | n in names)
    decreases src, |names|
  {
    var ks := set n | n in names;
    if names == [] {
      assert ks == {};
      MergeOnNothing(src, dst);
    } else {
      var n := names[0];
      var rest := names[1..];
      var ks' := set x | x in rest;
      assert ks == ks' + {n};
      assert n !in ks' by {
        assert forall j :: 0 <= j < |rest| ==> rest[j] == names[j + 1];
      }
      match src.entries[n]
      case Special =>
        CopyEntriesIsMerge(src, rest, dst, order);
        MergeOnSkip(src, dst, n, ks');
      case File(c) =>
        if CanWriteFile(dst, n) {
          CopyEntriesIsMerge(src, rest, Dir(dst.entries[n := File(c)]), order);
          CopiesOnFrame(src, dst, n, File(c), ks');
          MergeOnStep(src, dst, n, ks');
        } else {
          assert !EntryCopies(src, dst, n);
        }
      case Dir(m) =>
        if dst.Dir? {
          var sub := src.entries[n];
          assert Lists(order(m), m);
          assert (set x | x in order(m)) == m.Keys;
          CopyEntriesIsMerge(sub, order(m), Child(dst, n), order);
          var inner := CopyEntries(sub, order(m), Child(dst, n), order);
          if inner.status.Ok? {
            CopyEntriesIsMerge(src, rest, Dir(dst.entries[n := inner.tree]), order);
            CopiesOnFrame(src, dst, n, inner.tree, ks');
            MergeOnStep(src, dst, n, ks');
          } else {
            assert !EntryCopies(src, dst, n);
          }
        } else {
          assert !EntryCopies(src, dst, n);
        }
    }
  }

  /** Copying a directory succeeds, whatever order `read_dir` lists it in,
      exactly when `CanCopy` holds, and then leaves `Merge(src, dst)`. */
  lemma CopyDirIsMerge(src: Node, dst: Node, order: Lister)
    requires src.Dir? && ValidLister(order)
    ensures CopyDir(src, dst, order).status.Ok? <==> CanCopy(src, dst)
    ensures CanCopy(src, dst) ==> CopyDir(src, dst, order).tree == Merge(src, dst)
  {
    assert Lists(order(src.entries), src.entries);
    assert (set x | x in order(src.entries)) == src.entries.Keys;
    CopyEntriesIsMerge(src, order(src.entries), dst, order);
  }

  // ---------------------------------------------------------------------------
  // What the merge contains

  lemma {:induction false} CanCopyIntoEmpty(src: Node)
    requires src.Dir?
    ensures CanCopy(src, EmptyDir)
    decreases src
  {
    forall n | n in src.entries
      ensures EntryCopies(src, EmptyDir, n)
    {
      if src.entries[n].Dir? {
        CanCopyIntoEmpty(src.entries[n]);
      }
    }
  }

  /** One level of the merge: a copied name holds the merged entry, any other
      name what the destination had. */
  lemma MergeAt(src: Node, dst: Node, n: Name)
    requires src.Dir? && dst.Dir?
    ensures Merge(src, dst).Dir?
    ensures n in Copied(src.entries) ==>
              n in Merge(src, dst).entries && Merge(src, dst).entries[n] == MergeEntry(src, dst, n)
    ensures n in Copied(src.entries) && src.entries[n].Dir? ==>
              MergeEntry(src, dst, n) == Merge(src.entries[n], Child(dst, n))
    ensures n !in Copied(src.entries) ==>
              && (n in Merge(src, dst).entries <==> n in dst.entries)
              && (n in dst.entries ==> Merge(src, dst).entries[n] == dst.entries[n])
  {
  }

  /** After a copy that can succeed, every regular file of the source tree is
      at the same path in the destination with the same content, and every
      directory of the source tree is present there. */
  lemma {:induction false} MergeHoldsSource(src: Node, dst: Node, p: Path)
    requires src.Dir? && CanCopy(src, dst)
    ensures Get(src, p).Some? && Get(src, p).value.File? ==> Get(Merge(src, dst), p) == Get(src, p)
    ensures IsDirAt(src, p) ==> Exists(Merge(src, dst), p)
    decreases |p|
  {
    if p != [] && p[0] in src.entries {
      var n := p[0];
      var rest := p[1..];
      assert EntryCopies(src, dst, n);
      var r := Merge(src, dst);
      match src.entries[n]
      case Special =>
        assert Get(src, p) == Get(Special, rest);
      case File(_) =>
        MergeAt(src, dst, n);
        assert Get(r, p) == Get(r.entries[n], rest);
      case Dir(m) =>
        MergeAt(src, dst, n);
        assert Get(r, p) == Get(Merge(src.entries[n], Child(dst, n)), rest);
        MergeHoldsSource(src.entries[n], Child(dst, n), rest);
    }
  }

  /** After a copy that can succeed, every path the source tree has nothing at
      (or only a skipped special entry) shows what the destination had there:
      names the source does not have are left alone. */
  lemma {:induction false} MergeKeepsRest(src: Node, dst: Node, p: Path)
    requires src.Dir? && CanCopy(src, dst)
    requires Get(src, p).None? || Get(src, p) == Some(Special)
    ensures Get(Merge(src, dst), p) == Get(dst, p)
    decreases |p|
  {
    if dst.Dir? {
      var n := p[0];
      var rest := p[1..];
      var r := Merge(src, dst);
      MergeAt(src, dst, n);
      if n in src.entries {
        assert EntryCopies(src, dst, n);
        match src.entries[n]
        case Special =>
        case File(_) =>
          assert Get(r, p) == Get(r.entries[n], rest);
        case Dir(m) =>
          assert Get(r, p) == Get(Merge(src.entries[n], Child(dst, n)), rest);
          MergeKeepsRest(src.entries[n], Child(dst, n), rest);
      }
    }
  }

  /** Copied into an empty directory, the result has the same regular files
      with the same contents, and the same directories, as the source; only
      the special entries are missing. */
  lemma {:induction false} CopyIntoEmptyIsFaithful(src: Node, p: Path)
    requires src.Dir?
    ensures var r := Merge(src, EmptyDir);
            && ((Get(r, p).Some? && Get(r, p).value.File?) <==> (Get(src, p).Some? && Get(src, p).value.File?))
            && (Get(r, p).Some? && Get(r, p).value.File? ==> Get(r, p) == Get(src, p))
            && (IsDirAt(r, p) <==> IsDirAt(src, p))
    decreases |p|
  {
    var r := Merge(src, EmptyDir);
    if p == [] {
      MergeAt(src, EmptyDir, "");
    } else {
      var n := p[0];
      var rest := p[1..];
      MergeAt(src, EmptyDir, n);
      if n in src.entries {
        match src.entries[n]
        case Special =>
        case File(_) =>
          assert Get(r, p) == Get(src.entries[n], rest);
        case Dir(m) =>
          assert Child(EmptyDir, n) == EmptyDir;
          assert Get(r, p) == Get(Merge(src.entries[n], EmptyDir), rest);
          CopyIntoEmptyIsFaithful(src.entries[n], rest);
      }
    }
  }

  /** Merging a second time changes nothing, and still cannot fail. */
  lemma {:induction false} MergeIdempotent(src: Node, dst: Node)
    requires src.Dir? && CanCopy(src, dst)
    ensures CanCopy(src, Merge(src, dst))
    ensures Merge(src, Merge(src, dst)) == Merge(src, dst)
    decreases src
  {
    if dst.Dir? {
      var m := Merge(src, dst);
      forall n | n in src.entries
        ensures EntryCopies(src, m, n)
        ensures n in Copied(src.entries) ==> n in m.entries && MergeEntry(src, m, n) == m.entries[n]
      {
        assert EntryCopies(src, dst, n);
        MergeAt(src, dst, n);
        MergeAt(src, m, n);
        if src.entries[n].Dir? {
          assert Child(m, n) == Merge(src.entries[n], Child(dst, n));
          MergeIdempotent(src.entries[n], Child(dst, n));
        }
      }
      assert Merge(src, m).entries == m.entries;
    }
  }

  // ---------------------------------------------------------------------------
  // Running the loop again

  /** The loop over `names` leaves every other entry of a destination
      directory as it was. */
  lemma {:induction false} CopyEntriesElsewhere(src: Node, names: seq<Name>, dst: Node, order: Lister, k: Name)
    requires src.Dir? && dst.Dir? && k !in names
    ensures var t := CopyEntries(src, names, dst, order).tree;
            t.Dir? && (k in t.entries <==> k in dst.entries)
            && (k in dst.entries ==> t.entries[k] == dst.entries[k])
    decreases |names|
  {
    if names != [] {
      var n := names[0];
      assert k !in names[1..];
      if n in src.entries {
        match src.entries[n]
        case Special =>
          CopyEntriesElsewhere(src, names[1..], dst, order, k);
        case File(c) =>
          if CanWriteFile(dst, n) {
            CopyEntriesElsewhere(src, names[1..], Dir(dst.entries[n := File(c)]), order, k);
          }
        case Dir(m) =>
          var inner := CopyEntries(src.entries[n], order(m), Child(dst, n), order);
          if inner.status.Ok? {
            CopyEntriesElsewhere(src, names[1..], Dir(dst.entries[n := inner.tree]), order, k);
          }
      } else {
        CopyEntriesElsewhere(src, names[1..], dst, order, k);
      }
    }
  }

  /** Running the loop a second time on the tree the first run left gives
      the same status and the same tree, whether the first run succeeded or
      stopped at a failure: the entries it got through are copied again to
      the same result, and the entry it stopped at fails again the same way. */
  lemma {:induction false} CopyEntriesRepeat(src: Node, names: seq<Name>, dst: Node, order: Lister)
    requires src.Dir? && ValidLister(order) && Distinct(names)
    ensures var once := CopyEntries(src, names, dst, order);
            CopyEntries(src, names, once.tree, order) == once
    decreases src, |names|
  {
    if names != [] {
      var n := names[0];
      var rest := names[1..];
      assert Distinct(rest) && n !in rest by {
        assert forall j :: 0 <= j < |rest| ==> rest[j] == names[j + 1];
      }
      if n !in src.entries || src.entries[n].Special? {
        CopyEntriesRepeat(src, rest, dst, order);
      } else if src.entries[n].File? {
        var c := src.entries[n].content;
        if CanWriteFile(dst, n) {
          var dst1 := Dir(dst.entries[n := File(c)]);
          var t := CopyEntries(src, rest, dst1, order).tree;
          CopyEntriesElsewhere(src, rest, dst1, order, n);
          assert Dir(t.entries[n := File(c)]) == t;
          CopyEntriesRepeat(src, rest, dst1, order);
        }
      } else if dst.Dir? {
        var sub := src.entries[n];
        assert Lists(order(sub.entries), sub.entries);
        var inner := CopyEntries(sub, order(sub.entries), Child(dst, n), order);
        var dst1 := Dir(dst.entries[n := inner.tree]);
        CopyEntriesRepeat(sub, order(sub.entries), Child(dst, n), order);
        if inner.status.Ok? {
          var t := CopyEntries(src, rest, dst1, order).tree;
          CopyEntriesElsewhere(src, rest, dst1, order, n);
          assert Child(t, n) == inner.tree;
          assert Dir(t.entries[n := inner.tree]) == t;
          CopyEntriesRepeat(src, rest, dst1, order);
        } else {
          assert Child(dst1, n) == inner.tree;
          assert Dir(dst1.entries[n := inner.tree]) == dst1;
        }
      }
    }
  }

  // ---------------------------------------------------------------------------
  // copy_files on the whole disk

  /** `copy_files` changes nothing outside the destination, whether it
      succeeds or not. */
  lemma CopyFilesFrame(disk: Node, source: Path, dest: Path, dirOnly: bool, order: Lister, q: Path)
    requires Disjoint(dest, q)
    ensures Get(CopyFiles(disk, source, dest, dirOnly, order).tree, q) == Get(disk, q)
  {
    var prepared := Prepare(disk, dest, dirOnly);
    if prepared.Some? {
      var d := prepared.value;
      if !ExistsAs(disk, dest, dirOnly) {
        GetMkdirAll(disk, dest, q);
      }
      if IsDirAt(d, source) {
        var c := CopyDir(Get(d, source).value, Get(d, dest).value, order);
        GetUpdate(d, dest, c.tree, q);
      }
    }
  }

  /** `copy_files` succeeds exactly when the prepared destination can take the
      source tree, and the destination then holds the merge of the two. */
  lemma CopyFilesSpec(disk: Node, source: Path, dest: Path, dirOnly: bool, order: Lister)
    requires ValidLister(order)
    ensures var r := CopyFiles(disk, source, dest, dirOnly, order);
            var d := Prepare(disk, dest, dirOnly);
            r.status.Ok? <==> d.Some? && IsDirAt(d.value, source)
                              && CanCopy(Get(d.value, source).value, Get(d.value, dest).value)
    ensures var r := CopyFiles(disk, source, dest, dirOnly, order);
            var d := Prepare(disk, dest, dirOnly);
            r.status.Ok? ==> Get(r.tree, dest) == Some(Merge(Get(d.value, source).value, Get(d.value, dest).value))
  {
    var prepared := Prepare(disk, dest, dirOnly);
    if prepared.Some? && IsDirAt(prepared.value, source) {
      var d := prepared.value;
      CopyDirIsMerge(Get(d, source).value, Get(d, dest).value, order);
    }
  }

  /** For a source and destination that do not overlap, in terms of the disk
      before the call: the copy succeeds exactly when the destination can be
      created, the source is a directory, and the source tree can be merged into
      what the destination held; the result is that merge, and the source is
      never modified. */
  lemma CopyFilesDisjoint(disk: Node, source: Path, dest: Path, dirOnly: bool, order: Lister)
    requires ValidLister(order) && Disjoint(source, dest)
    ensures var r := CopyFiles(disk, source, dest, dirOnly, order);
            r.status.Ok? <==> Prepare(disk, dest, dirOnly).Some? && IsDirAt(disk, source)
                              && CanCopy(Get(disk, source).value, DestBefore(disk, dest))
    ensures var r := CopyFiles(disk, source, dest, dirOnly, order);
            r.status.Ok? ==> Get(r.tree, dest) == Some(Merge(Get(disk, source).value, DestBefore(disk, dest)))
    ensures Get(CopyFiles(disk, source, dest, dirOnly, order).tree, source) == Get(disk, source)
  {
    CopyFilesSpec(disk, source, dest, dirOnly, order);
    CopyFilesFrame(disk, source, dest, dirOnly, order, source);
    var prepared := Prepare(disk, dest, dirOnly);
    if prepared.Some? {
      if !ExistsAs(disk, dest, dirOnly) {
        GetMkdirAll(disk, dest, source);
      }
      assert Get(prepared.value, source) == Get(disk, source);
    }
  }

  /** Running `copy_files` a second time with the same source and destination
      gives the same outcome and leaves the disk as the first run left it,
      whatever that outcome was: a destination that could not be created still
      cannot be, a missing source is still missing, and a copy that stopped at
      an entry stops there again. */
  lemma CopyFilesIdempotent(disk: Node, source: Path, dest: Path, dirOnly: bool, order: Lister)
    requires ValidLister(order) && Disjoint(source, dest)
    ensures var once := CopyFiles(disk, source, dest, dirOnly, order);
            CopyFiles(once.tree, source, dest, dirOnly, order) == once
  {
    var prepared := Prepare(disk, dest, dirOnly);
    if prepared.Some? {
      var d := prepared.value;
      if IsDirAt(d, source) {
        var src := Get(d, source).value;
        assert Lists(order(src.entries), src.entries);
        var c := CopyDir(src, Get(d, dest).value, order);
        var t := Update(d, dest, c.tree);
        GetUpdate(d, dest, c.tree, dest);
        GetUpdate(d, dest, c.tree, source);
        assert Prepare(t, dest, dirOnly) == Some(t);
        CopyEntriesRepeat(src, order(src.entries), Get(d, dest).value, order);
        UpdateUnchanged(t, dest);
      }
    }
  }

  /** The destination is created before the source is read: a missing source,
      or one that is not a directory, makes `copy_files` return an error but
      leaves an empty destination directory behind. */
  lemma MissingSourceLeavesEmptyDest(disk: Node, source: Path, dest: Path, dirOnly: bool, order: Lister)
    requires Disjoint(source, dest)
    requires !Exists(disk, dest) && MkdirAll(disk, dest).Some?
    requires !IsDirAt(disk, source)
    ensures CopyFiles(disk, source, dest, dirOnly, order).status == IoError
    ensures Get(CopyFiles(disk, source, dest, dirOnly, order).tree, dest) == Some(EmptyDir)
  {
    GetMkdirAll(disk, dest, source);
  }

  /** A failed `read_dir("")` changes nothing outside the destination. */
  lemma CopyFilesNoSourceFrame(disk: Node, dest: Path, dirOnly: bool, q: Path)
    requires Disjoint(dest, q)
    ensures Get(CopyFilesNoSource(disk, dest, dirOnly).tree, q) == Get(disk, q)
  {
    if Prepare(disk, dest, dirOnly).Some? && !ExistsAs(disk, dest, dirOnly) {
      GetMkdirAll(disk, dest, q);
    }
  }

  // ---------------------------------------------------------------------------
  // Where a failing copy stops

  /** The loop over `a + b` is the loop over `a`, then, if that succeeded, the
      loop over `b` from where it left off. */
  lemma {:induction false} CopyEntriesAppend(src: Node, a: seq<Name>, b: seq<Name>, dst: Node, order: Lister)
    requires src.Dir?
    ensures CopyEntries(src, a + b, dst, order) ==
            (var r := CopyEntries(src, a, dst, order);
             if r.status.Ok? then CopyEntries(src, b, r.tree, order) else r)
    decreases |a|
  {
    if a == [] {
      assert a + b == b;
    } else {
      var n := a[0];
      assert (a + b)[0] == n && (a + b)[1..] == a[1..] + b;
      if n !in src.entries {
        CopyEntriesAppend(src, a[1..], b, dst, order);
      } else {
        match src.entries[n]
        case Special =>
          CopyEntriesAppend(src, a[1..], b, dst, order);
        case File(c) =>
          if CanWriteFile(dst, n) {
            CopyEntriesAppend(src, a[1..], b, Dir(dst.entries[n := File(c)]), order);
          }
        case Dir(m) =>
          if dst.Dir? {
            var inner := CopyEntries(src.entries[n], order(m), Child(dst, n), order);
            if inner.status.Ok? {
              CopyEntriesAppend(src, a[1..], b, Dir(dst.entries[n := inner.tree]), order);
            }
          }
      }
    }
  }

  /** Merging other names leaves name `n` of the destination as it was. */
  lemma MergeOnOutside(src: Node, dst: Node, ks: set<Name>, n: Name)
    requires src.Dir? && n !in ks
    ensures var t := MergeOn(src, dst, ks);
            && (dst.Dir? <==> t.Dir?)
            && (dst.Dir? ==> (n in t.entries <==> n in dst.entries))
            && (dst.Dir? && n in dst.entries ==> t.entries[n] == dst.entries[n])
  {
  }

  /** Copies the entries listed before position `i` and reports how it went. */
  lemma CopiedPrefix(src: Node, dst: Node, order: Lister, i: nat)
    requires src.Dir? && ValidLister(order)
    requires i < |order(src.entries)|
    requires CopiesOn(src, dst, set n | n in order(src.entries)[..i])
    ensures var names := order(src.entries);
            var t := MergeOn(src, dst, set n | n in names[..i]);
            CopyDir(src, dst, order) == CopyEntries(src, names[i..], t, order)
  {
    var names := order(src.entries);
    assert Lists(names, src.entries);
    assert names == names[..i] + names[i..];
    CopyEntriesAppend(src, names[..i], names[i..], dst, order);
    CopyEntriesIsMerge(src, names[..i], dst, order);
  }

  /** A regular file directly under the source that cannot be written makes
      `copy_files` return an error; the files listed before it stay copied. */
  lemma FileFailureKeepsEarlierCopies(src: Node, dst: Node, order: Lister, i: nat)
    requires src.Dir? && ValidLister(order)
    requires i < |order(src.entries)|
    requires order(src.entries)[i] in src.entries && src.entries[order(src.entries)[i]].File?
    requires CopiesOn(src, dst, set n | n in order(src.entries)[..i])
    requires !CanWriteFile(dst, order(src.entries)[i])
    ensures var names := order(src.entries);
            var r := CopyDir(src, dst, order);
            && r.status == IoError
            && r.tree == MergeOn(src, dst, set n | n in names[..i])
            && forall k :: 0 <= k < i && src.entries[names[k]].File? ==>
                 Get(r.tree, [names[k]]) == Some(src.entries[names[k]])
  {
    var names := order(src.entries);
    assert Lists(names, src.entries);
    var ks := set n | n in names[..i];
    CopiedPrefix(src, dst, order, i);
    assert names[i] !in ks by {
      assert forall k :: 0 <= k < i ==> names[..i][k] == names[k];
    }
    MergeOnOutside(src, dst, ks, names[i]);
    assert names[i..][0] == names[i];
    forall k | 0 <= k < i && src.entries[names[k]].File?
      ensures Get(MergeOn(src, dst, ks), [names[k]]) == Some(src.entries[names[k]])
    {
      assert names[k] in ks;
      assert EntryCopies(src, dst, names[k]);
    }
  }

  /** A subdirectory whose recursive copy fails makes `copy_files` panic through
      the `.expect` instead of returning an error. */
  lemma SubdirFailurePanics(src: Node, dst: Node, order: Lister, i: nat)
    requires src.Dir? && ValidLister(order)
    requires i < |order(src.entries)|
    requires order(src.entries)[i] in src.entries && src.entries[order(src.entries)[i]].Dir?
    requires CopiesOn(src, dst, set n | n in order(src.entries)[..i])
    requires !EntryCopies(src, dst, order(src.entries)[i])
    ensures CopyDir(src, dst, order).status == Panic(CopyPanic)
  {
    var names := order(src.entries);
    assert Lists(names, src.entries);
    var ks := set n | n in names[..i];
    var n := names[i];
    CopiedPrefix(src, dst, order, i);
    assert n !in ks by {
      assert forall k :: 0 <= k < i ==> names[..i][k] == names[k];
    }
    MergeOnOutside(src, dst, ks, n);
    var t := MergeOn(src, dst, ks);
    assert names[i..][0] == n;
    if t.Dir? {
      var sub := src.entries[n];
      assert Child(t, n) == Child(dst, n);
      CopyDirIsMerge(sub, Child(t, n), order);
    }
  }

  // ---------------------------------------------------------------------------
  // fs::copy of a single file

  /** `fs::copy(from, dir/name)`: the source must be a regular file and `dir` an
      existing directory in which `name` is free or a regular file. */
  function CopyFile(disk: Node, from: Path, dir: Path, name: Name): (r: Option<Node>)
    ensures r.Some? <==> Get(disk, from).Some? && Get(disk, from).value.File?
                         && IsDirAt(disk, dir) && CanWriteFile(Get(disk, dir).value, name)
    ensures r.Some? ==> Get(r.value, dir + [name]) == Get(disk, from)
  {
    match Get(disk, from)
    case Some(File(c)) =>
      if IsDirAt(disk, dir) && CanWriteFile(Get(disk, dir).value, name)
      then Some(Put(disk, dir, name, File(c))) else None
    case _ => None
  }

  /** A file copy writes only its target. */
  lemma GetCopyFile(disk: Node, from: Path, dir: Path, name: Name, q: Path)
    requires CopyFile(disk, from, dir, name).Some? && Disjoint(dir + [name], q)
    ensures Get(CopyFile(disk, from, dir, name).value, q) == Get(disk, q)
  {
    GetPut(disk, dir, name, Get(disk, from).value, q);
  }
}

=== FILE: game_saves.dfy ===
/** `GameSaves`: adding a game with its save directory, editing a game's
    details, and removing a game with all its saves. Each operation is a
    function from the catalog and disk before to the outcome after; what the
    user types is passed in as strings, and an `.expect` that fires is a
    `Panic` that keeps every change made before it. */
module GameSaves {
  import opened Wrappers
  import opened FileTree
  import opened Filesystem
  import opened Catalog
  import opened BackupPath
  import opened Seqs
  import Text
  import Decimal
  import Ids

  /** What the operations depend on besides the catalog and the disk: the
      working directory relative paths start from, the `read_dir` order, and
      whether the operating system lets `remove_dir_all` delete the directory
      at a path (permissions and open handles are not part of the tree). */
  datatype Env = Env(cwd: Path, order: Lister, canDelete: Path -> bool)

  datatype State = State(db: Db, disk: Node)

  datatype Outcome = Outcome(status: Status, state: State)

  const InvalidInput := "Invalid input"
  const DeletePanic := "Failed to delete game save"

  // ---------------------------------------------------------------------------
  // add_game_save

  /** The ids the next insert into each table hands out. */
  datatype NewIds = NewIds(game: int, platform: int, location: int, save: int)

  function FreshIds(db: Db): (r: NewIds)
    ensures r.game !in db.games && r.platform !in db.platforms
    ensures r.location !in db.locations && r.save !in db.saves
  {
    NewIds(Ids.NextId(db.games.Keys), Ids.NextId(db.platforms.Keys),
           Ids.NextId(db.locations.Keys), Ids.NextId(db.saves.Keys))
  }

  /** The four inserts of `add_game_save`: a game, a platform, a location
      holding the trimmed path with an empty description, and a save with empty
      metadata linking the three; with the ids they received. Each table gains
      exactly one row, under the id the next insert hands out, and the save row
      links the three other new rows. */
  function AddRows(db: Db, title: string, publisher: string, releaseDate: string,
                   platform: string, location: string): (r: (Db, NewIds))
    ensures r.1 == FreshIds(db)
    ensures r.0.games == db.games[r.1.game := Game(Text.Trim(title), Text.Trim(publisher), Text.Trim(releaseDate))]
    ensures r.0.platforms == db.platforms[r.1.platform := Platform(Text.Trim(platform))]
    ensures r.0.locations == db.locations[r.1.location := Location(Text.Trim(location), "")]
    ensures r.0.saves == db.saves[r.1.save := Save(r.1.game, r.1.location, "", r.1.platform)]
  {
    var (db1, game) := InsertGame(db, Game(Text.Trim(title), Text.Trim(publisher), Text.Trim(releaseDate)));
    var (db2, plat) := InsertPlatform(db1, Platform(Text.Trim(platform)));
    var (db3, loc) := InsertLocation(db2, Location(Text.Trim(location), ""));
    var (db4, save) := InsertSave(db3, Save(game, loc, "", plat));
    (db4, NewIds(game, plat, loc, save))
  }

  /** `add_game_save` with the five lines the user entered: the rows are
      inserted, then the directory at the trimmed path is copied into the backup
      directory of the new ids. The backup key ends in `/`, so it names a
      directory only (`BackupKeyResolves`); an empty path cannot be read. The
      catalog changes are the inserts whatever the copy does, and a failing
      copy is the panic of its `.expect`. */
  function AddGameSave(env: Env, st: State, title: string, publisher: string, releaseDate: string,
                       platform: string, location: string): (r: Outcome)
    ensures r.state.db == AddRows(st.db, title, publisher, releaseDate, platform, location).0
    ensures r.status == Ok || r.status == Panic(CopyPanic)
  {
    var (db, ids) := AddRows(st.db, title, publisher, releaseDate, platform, location);
    var live := Text.Trim(location);
    var dir := BackupDir(env.cwd, ids.game, ids.platform, ids.save);
    var c := if live == [] then CopyFilesNoSource(st.disk, dir, true)
             else CopyFiles(st.disk, Resolve(env.cwd, live), dir, true, env.order);
    Outcome(if c.status.Ok? then Ok else Panic(CopyPanic), State(db, c.tree))
  }

  /** The backup directory `add_game_save` fills. */
  function AddedDir(env: Env, db: Db): Path {
    var ids := FreshIds(db);
    BackupDir(env.cwd, ids.game, ids.platform, ids.save)
  }

  /** The catalog gains exactly one row per table, under fresh ids, whether or
      not the copy succeeds; the save row links the three new rows; on disk
      nothing outside the backup directory of the new ids changes. */
  lemma AddGameSaveRows(env: Env, st: State, title: string, publisher: string, releaseDate: string,
                        platform: string, location: string)
    ensures var r := AddGameSave(env, st, title, publisher, releaseDate, platform, location);
            var ids := FreshIds(st.db);
            && r.state.db.games == st.db.games[ids.game := Game(Text.Trim(title), Text.Trim(publisher), Text.Trim(releaseDate))]
            && r.state.db.platforms == st.db.platforms[ids.platform := Platform(Text.Trim(platform))]
            && r.state.db.locations == st.db.locations[ids.location := Location(Text.Trim(location), "")]
            && r.state.db.saves == st.db.saves[ids.save := Save(ids.game, ids.location, "", ids.platform)]
    ensures var r := AddGameSave(env, st, title, publisher, releaseDate, platform, location);
            forall q :: Disjoint(AddedDir(env, st.db), q) ==> Get(r.state.disk, q) == Get(st.disk, q)
  {
    forall q | Disjoint(AddedDir(env, st.db), q)
      ensures Get(AddGameSave(env, st, title, publisher, releaseDate, platform, location).state.disk, q) == Get(st.disk, q)
    {
      if Text.Trim(location) == [] {
        CopyFilesNoSourceFrame(st.disk, AddedDir(env, st.db), true, q);
      } else {
        CopyFilesFrame(st.disk, Resolve(env.cwd, Text.Trim(location)), AddedDir(env, st.db), true, env.order, q);
      }
    }
  }

  /** The path copied is the path stored in the new location row. When it does
      not overlap the backup directory, the add succeeds exactly when the copy
      into that directory can succeed, and the backup then holds the live save
      directory merged into what was there; otherwise the add panics. */
  lemma AddGameSaveCopies(env: Env, st: State, title: string, publisher: string, releaseDate: string,
                          platform: string, location: string)
    requires ValidLister(env.order)
    requires Disjoint(Resolve(env.cwd, Text.Trim(location)), AddedDir(env, st.db))
    ensures var r := AddGameSave(env, st, title, publisher, releaseDate, platform, location);
            var ids := FreshIds(st.db);
            var live := Resolve(env.cwd, r.state.db.locations[ids.location].path);
            var dir := BackupDir(env.cwd, ids.game, ids.platform, ids.save);
            && live == Resolve(env.cwd, Text.Trim(location))
            && (r.status.Ok? <==> Prepare(st.disk, dir, true).Some? && IsDirAt(st.disk, live)
                                  && CanCopy(Get(st.disk, live).value, DestBefore(st.disk, dir)))
            && (r.status.Ok? ==> Get(r.state.disk, dir) == Some(Merge(Get(st.disk, live).value, DestBefore(st.disk, dir))))
            && (!r.status.Ok? ==> r.status == Panic(CopyPanic))
            && Get(r.state.disk, live) == Get(st.disk, live)
  {
    EmptyLocationOverlaps(env, st.db);
    CopyFilesDisjoint(st.disk, Resolve(env.cwd, Text.Trim(location)), AddedDir(env, st.db), true, env.order);
  }

  /** The empty path stands for the working directory, which holds every
      backup directory. */
  lemma EmptyLocationOverlaps(env: Env, db: Db)
    ensures !Disjoint(Resolve(env.cwd, ""), AddedDir(env, db))
  {
    ResolveEmpty(env.cwd);
    assert env.cwd <= AddedDir(env, db);
  }

  /** An empty location cannot be read: the add panics after `create_dir_all`
      has made sure of the backup directory, and the rows stay inserted. The
      backup directory is there afterwards exactly when it could be created,
      and it then holds what it held before, or nothing. */
  lemma AddWithoutLocation(env: Env, st: State, title: string, publisher: string, releaseDate: string,
                           platform: string, location: string)
    requires Text.Trim(location) == []
    ensures var r := AddGameSave(env, st, title, publisher, releaseDate, platform, location);
            var dir := AddedDir(env, st.db);
            && r.status == Panic(CopyPanic)
            && (IsDirAt(r.state.disk, dir) <==> MkdirAll(st.disk, dir).Some?)
            && (MkdirAll(st.disk, dir).Some? ==> Get(r.state.disk, dir) == Some(DestBefore(st.disk, dir)))
  {
    var dir := AddedDir(env, st.db);
    if MkdirAll(st.disk, dir).None? {
      assert !IsDirAt(st.disk, dir);
    }
  }

  /** Inserting a save together with a fresh game, platform and location it
      refers to keeps the catalog consistent. */
  lemma InsertLinkedConsistent(db: Db, ids: NewIds, g: Game, p: Platform, l: Location)
    requires Consistent(db)
    requires ids.game !in db.games && ids.platform !in db.platforms
    requires ids.location !in db.locations && ids.save !in db.saves
    ensures Consistent(Db(db.games[ids.game := g], db.platforms[ids.platform := p],
                          db.locations[ids.location := l],
                          db.saves[ids.save := Save(ids.game, ids.location, "", ids.platform)]))
  {
    forall s | s in db.saves
      ensures db.saves[s].locationId != ids.location
    {
      assert db.saves[s].locationId in db.locations;
    }
  }

  /** Adding keeps the catalog consistent, also when the copy fails. */
  lemma AddKeepsConsistent(db: Db, title: string, publisher: string, releaseDate: string,
                           platform: string, location: string)
    requires Consistent(db)
    ensures Consistent(AddRows(db, title, publisher, releaseDate, platform, location).0)
  {
    InsertLinkedConsistent(db, FreshIds(db), Game(Text.Trim(title), Text.Trim(publisher), Text.Trim(releaseDate)),
                           Platform(Text.Trim(platform)), Location(Text.Trim(location), ""));
  }

  // ---------------------------------------------------------------------------
  // edit_game_save

  /** The edit rule for one field: an empty (trimmed) answer keeps the existing
      value, anything else replaces it. */
  function Keep(existing: string, answer: string): string {
    if answer == [] then existing else answer
  }

  /** `edit_game_save` with the lines the user entered: a title to search for,
      the chosen game id, and the three new field values. Only the games table
      can change. */
  function EditGameSave(st: State, query: string, choice: string,
                        newTitle: string, newPublisher: string, newReleaseDate: string): (r: Outcome)
    ensures r.state.disk == st.disk
    ensures r.state.db.platforms == st.db.platforms && r.state.db.locations == st.db.locations
    ensures r.state.db.saves == st.db.saves && r.state.db.games.Keys == st.db.games.Keys
    ensures r.status == Ok || (r.status == Panic(InvalidInput) && r.state == st)
  {
    if GamesByTitle(st.db, Text.Trim(query)) == [] then Outcome(Ok, st)
    else match Decimal.ParseI32(Text.Trim(choice))
      case None => Outcome(Panic(InvalidInput), st)
      case Some(id) =>
        var t := Text.Trim(newTitle);
        var p := Text.Trim(newPublisher);
        var d := Text.Trim(newReleaseDate);
        if t == [] && p == [] && d == [] then Outcome(Ok, st)
        else
          var existing := GameOf(st.db, id);
          var g := Game(Keep(existing.title, t), Keep(existing.publisher, p), Keep(existing.releaseDate, d));
          Outcome(Ok, st.(db := UpdateGame(st.db, id, g)))
  }

  /** When a game matches the search and the chosen id names a game, each
      field becomes its trimmed new value if that is non-empty and keeps its
      old value otherwise, as long as some new value is non-empty. Every other
      game is left alone. */
  lemma EditMergesFields(st: State, query: string, choice: string,
                         newTitle: string, newPublisher: string, newReleaseDate: string, id: int)
    requires GamesByTitle(st.db, Text.Trim(query)) != []
    requires Decimal.ParseI32(Text.Trim(choice)) == Some(id) && id in st.db.games
    requires Text.Trim(newTitle) != [] || Text.Trim(newPublisher) != [] || Text.Trim(newReleaseDate) != []
    ensures var r := EditGameSave(st, query, choice, newTitle, newPublisher, newReleaseDate);
            var before := st.db.games[id];
            && r.status == Ok
            && r.state.db.games[id].title == (if Text.Trim(newTitle) == [] then before.title else Text.Trim(newTitle))
            && r.state.db.games[id].publisher == (if Text.Trim(newPublisher) == [] then before.publisher else Text.Trim(newPublisher))
            && r.state.db.games[id].releaseDate == (if Text.Trim(newReleaseDate) == [] then before.releaseDate else Text.Trim(newReleaseDate))
            && forall k :: k in st.db.games && k != id ==> r.state.db.games[k] == st.db.games[k]
  {
  }

  /** The cases in which an edit writes nothing: no game matches the search,
      the choice is not a number (a panic), the chosen id names no game, or
      every new value is blank. */
  lemma EditWithoutChange(st: State, query: string, choice: string,
                          newTitle: string, newPublisher: string, newReleaseDate: string)
    ensures var r := EditGameSave(st, query, choice, newTitle, newPublisher, newReleaseDate);
            GamesByTitle(st.db, Text.Trim(query)) == [] ==> r == Outcome(Ok, st)
    ensures var r := EditGameSave(st, query, choice, newTitle, newPublisher, newReleaseDate);
            GamesByTitle(st.db, Text.Trim(query)) != [] && Decimal.ParseI32(Text.Trim(choice)).None? ==>
              r == Outcome(Panic(InvalidInput), st)
    ensures var r := EditGameSave(st, query, choice, newTitle, newPublisher, newReleaseDate);
            var c := Decimal.ParseI32(Text.Trim(choice));
            c.Some? && c.value !in st.db.games ==> r.state == st
    ensures var r := EditGameSave(st, query, choice, newTitle, newPublisher, newReleaseDate);
            Text.Trim(newTitle) == [] && Text.Trim(newPublisher) == [] && Text.Trim(newReleaseDate) == [] ==>
              r.state == st
  {
  }

  /** Repeating an edit with the same answers changes nothing more. */
  lemma EditIdempotent(st: State, query: string, choice: string,
                       newTitle: string, newPublisher: string, newReleaseDate: string)
    ensures var once := EditGameSave(st, query, choice, newTitle, newPublisher, newReleaseDate);
            EditGameSave(once.state, query, choice, newTitle, newPublisher, newReleaseDate).state == once.state
  {
    var once := EditGameSave(st, query, choice, newTitle, newPublisher, newReleaseDate);
    var c := Decimal.ParseI32(Text.Trim(choice));
    var t := Text.Trim(newTitle);
    var p := Text.Trim(newPublisher);
    var d := Text.Trim(newReleaseDate);
    if once.state != st {
      assert GamesByTitle(st.db, Text.Trim(query)) != [] && c.Some?;
      assert t != [] || p != [] || d != [];
      var id := c.value;
      var existing := GameOf(st.db, id);
      var g := Game(Keep(existing.title, t), Keep(existing.publisher, p), Keep(existing.releaseDate, d));
      assert id in st.db.games;
      assert once.state == st.(db := st.db.(games := st.db.games[id := g]));
      assert GameOf(once.state.db, id) == g;
      assert Game(Keep(g.title, t), Keep(g.publisher, p), Keep(g.releaseDate, d)) == g;
      assert once.state.db.games[id := g] == once.state.db.games;
    }
  }

  // ---------------------------------------------------------------------------
  // remove_game_save

  /** The backup directory of a save row. */
  function SaveDir(cwd: Path, row: (int, Save)): Path {
    BackupDir(cwd, row.1.gameId, row.1.platformId, row.0)
  }

  /** The backup directory is there, but `remove_dir_all` may not delete it.
      The key ends in `/`, so `exists()` sees a directory only: anything else
      at the path is not removed, and cannot make the removal fail. */
  predicate Undeletable(env: Env, disk: Node, dir: Path) {
    IsDirAt(disk, dir) && !env.canDelete(dir)
  }

  /** What a removal of `dir` leaves there: nothing where a directory was, and
      whatever else was there as it was. */
  function AfterRemoval(disk: Node, dir: Path): Option<Node> {
    if IsDirAt(disk, dir) then None else Get(disk, dir)
  }

  /** The loop of `remove_game_save` over the saves it fetched: for each save,
      its backup directory is removed if it is there, then the save row and its
      location row are deleted. Games and platforms are never touched, and the
      only way it fails is the panic on a backup directory it cannot delete. */
  function RemoveSaves(env: Env, st: State, rows: seq<(int, Save)>): (r: Outcome)
    ensures r.state.db.games == st.db.games && r.state.db.platforms == st.db.platforms
    ensures !r.status.Ok? ==> r.status == Panic(DeletePanic)
    decreases |rows|
  {
    if rows == [] then Outcome(Ok, st)
    else
      var dir := SaveDir(env.cwd, rows[0]);
      if Undeletable(env, st.disk, dir) then Outcome(Panic(DeletePanic), st)
      else RemoveSaves(env, RemoveOne(env, st, rows[0]), rows[1..])
  }

  /** One iteration of the removal loop that does not panic: the backup
      directory goes if there is one, and the save row and its location row go. */
  function RemoveOne(env: Env, st: State, row: (int, Save)): (r: State)
    ensures Get(r.disk, SaveDir(env.cwd, row)) == AfterRemoval(st.disk, SaveDir(env.cwd, row))
    ensures r.db == st.db.(saves := st.db.saves - {row.0}, locations := st.db.locations - {row.1.locationId})
  {
    var dir := SaveDir(env.cwd, row);
    var disk := if IsDirAt(st.disk, dir) then Remove(st.disk, dir) else st.disk;
    State(DeleteLocation(DeleteSave(st.db, row.0), row.1.locationId), disk)
  }

  /** One iteration leaves every path disjoint from its backup directory alone. */
  lemma RemoveOneFrame(env: Env, st: State, row: (int, Save), q: Path)
    requires Disjoint(SaveDir(env.cwd, row), q)
    ensures Get(RemoveOne(env, st, row).disk, q) == Get(st.disk, q)
  {
    if IsDirAt(st.disk, SaveDir(env.cwd, row)) {
      GetRemove(st.disk, SaveDir(env.cwd, row), q);
    }
  }

  /** `remove_game_save(game)`: every save of the game, then the game row. The
      game row goes exactly when the saves loop succeeds, the only failure is
      the panic on a backup directory, and platforms are never deleted. */
  function RemoveGameSave(env: Env, st: State, game: int): (r: Outcome)
    ensures r.status.Ok? ==> r.state.db.games == st.db.games - {game}
    ensures !r.status.Ok? ==> r.status == Panic(DeletePanic) && r.state.db.games == st.db.games
    ensures r.state.db.platforms == st.db.platforms
  {
    var r := RemoveSaves(env, st, SaveRowsOf(st.db, game));
    if r.status.Ok? then Outcome(Ok, r.state.(db := DeleteGame(r.state.db, game))) else r
  }

  function RowIds(rows: seq<(int, Save)>): set<int> {
    set k | 0 <= k < |rows| :: rows[k].0
  }

  function RowLocations(rows: seq<(int, Save)>): set<int> {
    set k | 0 <= k < |rows| :: rows[k].1.locationId
  }

  lemma RowSetsCons(rows: seq<(int, Save)>)
    requires rows != []
    ensures RowIds(rows) == {rows[0].0} + RowIds(rows[1..])
    ensures RowLocations(rows) == {rows[0].1.locationId} + RowLocations(rows[1..])
  {
    var rest := rows[1..];
    assert forall k :: 0 <= k < |rest| ==> rest[k] == rows[k + 1];
    assert forall k :: 1 <= k < |rows| ==> rows[k] == rest[k - 1];
  }

  /** The save ids of the rows, in order. */
  function IdList(rows: seq<(int, Save)>): (r: seq<int>)
    ensures |r| == |rows| && forall k :: 0 <= k < |rows| ==> r[k] == rows[k].0
  {
    seq(|rows|, k requires 0 <= k < |rows| => rows[k].0)
  }

  /** No save id occurs twice among the rows. */
  ghost predicate DistinctIds(rows: seq<(int, Save)>) {
    Distinct(IdList(rows))
  }

  /** The rows after the first have distinct ids too, none of them the first. */
  lemma DistinctIdsTail(rows: seq<(int, Save)>)
    requires DistinctIds(rows) && rows != []
    ensures DistinctIds(rows[1..])
    ensures forall k :: 0 < k < |rows| ==> rows[k].0 != rows[0].0
  {
    var ids := IdList(rows);
    var tail := IdList(rows[1..]);
    forall i, j | 0 <= i < j < |tail|
      ensures tail[i] != tail[j]
    {
      assert tail[i] == ids[i + 1] && tail[j] == ids[j + 1];
    }
    forall k | 0 < k < |rows|
      ensures rows[k].0 != rows[0].0
    {
      assert ids[0] != ids[k];
    }
  }

  /** The backup directories of rows with distinct save ids do not overlap. */
  lemma SaveDirsDisjoint(env: Env, rows: seq<(int, Save)>, k: int)
    requires DistinctIds(rows) && 0 < k < |rows|
    ensures Disjoint(SaveDir(env.cwd, rows[0]), SaveDir(env.cwd, rows[k]))
  {
    DistinctIdsTail(rows);
    BackupDirsDisjoint(env.cwd, rows[0].1.gameId, rows[0].1.platformId, rows[0].0,
                       rows[k].1.gameId, rows[k].1.platformId, rows[k].0);
  }

  /** The removal loop succeeds exactly when every backup directory of the rows
      that is there may be deleted. */
  lemma {:induction false} RemoveSavesStatus(env: Env, st: State, rows: seq<(int, Save)>)
    requires DistinctIds(rows)
    ensures RemoveSaves(env, st, rows).status.Ok? <==>
            forall k :: 0 <= k < |rows| ==> !Undeletable(env, st.disk, SaveDir(env.cwd, rows[k]))
    decreases |rows|
  {
    if rows != [] && !Undeletable(env, st.disk, SaveDir(env.cwd, rows[0])) {
      var st1 := RemoveOne(env, st, rows[0]);
      forall k | 1 <= k < |rows|
        ensures Get(st1.disk, SaveDir(env.cwd, rows[k])) == Get(st.disk, SaveDir(env.cwd, rows[k]))
      {
        SaveDirsDisjoint(env, rows, k);
        RemoveOneFrame(env, st, rows[0], SaveDir(env.cwd, rows[k]));
      }
      DistinctIdsTail(rows);
      RemoveSavesStatus(env, st1, rows[1..]);
      assert forall k :: 1 <= k < |rows| ==> rows[1..][k - 1] == rows[k];
    }
  }

  /** A removal loop that succeeds has deleted every listed save row and
      location row, and no other. */
  lemma {:induction false} RemoveSavesRows(env: Env, st: State, rows: seq<(int, Save)>)
    ensures var r := RemoveSaves(env, st, rows);
            r.status.Ok? ==> r.state.db.saves == st.db.saves - RowIds(rows)
                             && r.state.db.locations == st.db.locations - RowLocations(rows)
    decreases |rows|
  {
    if rows == [] {
      assert RowIds(rows) == {} && RowLocations(rows) == {};
      assert st.db.saves - {} == st.db.saves && st.db.locations - {} == st.db.locations;
    } else if !Undeletable(env, st.disk, SaveDir(env.cwd, rows[0])) {
      var st1 := RemoveOne(env, st, rows[0]);
      RemoveSavesRows(env, st1, rows[1..]);
      RowSetsCons(rows);
      assert st1.db.saves - RowIds(rows[1..]) == st.db.saves - RowIds(rows);
      assert st1.db.locations - RowLocations(rows[1..]) == st.db.locations - RowLocations(rows);
    }
  }

  /** The removal loop has deleted the rows of the prefix it got through: all
      of them when it succeeds, and a proper prefix when it panics. */
  lemma {:induction false} RemoveSavesPartial(env: Env, st: State, rows: seq<(int, Save)>) returns (i: nat)
    ensures i == Completed(env, st, rows)
    ensures RemoveSaves(env, st, rows).status.Ok? <==> i == |rows|
    ensures var r := RemoveSaves(env, st, rows);
            r.state.db.saves == st.db.saves - RowIds(rows[..i])
            && r.state.db.locations == st.db.locations - RowLocations(rows[..i])
    decreases |rows|
  {
    if rows == [] || Undeletable(env, st.disk, SaveDir(env.cwd, rows[0])) {
      i := 0;
      assert RowIds(rows[..0]) == {} && RowLocations(rows[..0]) == {};
      assert st.db.saves - {} == st.db.saves && st.db.locations - {} == st.db.locations;
    } else {
      var st1 := RemoveOne(env, st, rows[0]);
      var rest := rows[1..];
      var j := RemoveSavesPartial(env, st1, rest);
      i := j + 1;
      assert rows[..i][1..] == rest[..j];
      RowSetsCons(rows[..i]);
      assert st1.db.saves - RowIds(rest[..j]) == st.db.saves - RowIds(rows[..i]);
      assert st1.db.locations - RowLocations(rest[..j]) == st.db.locations - RowLocations(rows[..i]);
    }
  }

  /** How many rows the removal loop gets through before it stops. */
  function Completed(env: Env, st: State, rows: seq<(int, Save)>): (i: nat)
    ensures i <= |rows|
    decreases |rows|
  {
    if rows == [] || Undeletable(env, st.disk, SaveDir(env.cwd, rows[0])) then 0
    else 1 + Completed(env, RemoveOne(env, st, rows[0]), rows[1..])
  }

  /** For rows with distinct ids, the loop stops at the first save whose
      backup directory, on the disk before the loop, may not be deleted. */
  lemma {:induction false} CompletedStopsAtFirst(env: Env, st: State, rows: seq<(int, Save)>)
    requires DistinctIds(rows)
    ensures var i := Completed(env, st, rows);
            && (forall k :: 0 <= k < i ==> !Undeletable(env, st.disk, SaveDir(env.cwd, rows[k])))
            && (i < |rows| ==> Undeletable(env, st.disk, SaveDir(env.cwd, rows[i])))
    decreases |rows|
  {
    if rows != [] && !Undeletable(env, st.disk, SaveDir(env.cwd, rows[0])) {
      var st1 := RemoveOne(env, st, rows[0]);
      var rest := rows[1..];
      forall k | 1 <= k < |rows|
        ensures rest[k - 1] == rows[k]
        ensures Get(st1.disk, SaveDir(env.cwd, rows[k])) == Get(st.disk, SaveDir(env.cwd, rows[k]))
      {
        SaveDirsDisjoint(env, rows, k);
        RemoveOneFrame(env, st, rows[0], SaveDir(env.cwd, rows[k]));
      }
      DistinctIdsTail(rows);
      CompletedStopsAtFirst(env, st1, rest);
    }
  }

  /** Among rows with distinct ids, no row after a prefix has an id of it. */
  lemma PrefixIdsExclude(rows: seq<(int, Save)>, i: nat)
    requires DistinctIds(rows) && i <= |rows|
    ensures forall k :: i <= k < |rows| ==> rows[k].0 !in RowIds(rows[..i])
  {
    var ids := IdList(rows);
    forall k, m | i <= k < |rows| && 0 <= m < i
      ensures rows[..i][m].0 != rows[k].0
    {
      assert ids[m] != ids[k];
    }
  }

  /** Where the removal loop over rows with distinct ids stops: at the first
      save whose backup directory, on the disk before the loop, may not be
      deleted. The rows before it are deleted, and that save's row and every
      later one are still there. */
  lemma RemoveSavesStops(env: Env, st: State, rows: seq<(int, Save)>) returns (i: nat)
    requires DistinctIds(rows)
    ensures i <= |rows|
    ensures RemoveSaves(env, st, rows).status.Ok? <==> i == |rows|
    ensures forall k :: 0 <= k < i ==> !Undeletable(env, st.disk, SaveDir(env.cwd, rows[k]))
    ensures i < |rows| ==> Undeletable(env, st.disk, SaveDir(env.cwd, rows[i]))
    ensures var r := RemoveSaves(env, st, rows);
            r.state.db.saves == st.db.saves - RowIds(rows[..i])
            && r.state.db.locations == st.db.locations - RowLocations(rows[..i])
    ensures var r := RemoveSaves(env, st, rows);
            forall k :: i <= k < |rows| && rows[k].0 in st.db.saves ==> rows[k].0 in r.state.db.saves
  {
    i := RemoveSavesPartial(env, st, rows);
    CompletedStopsAtFirst(env, st, rows);
    PrefixIdsExclude(rows, i);
  }

  /** On disk the removal loop changes nothing outside the backup directories
      of the rows, whether it succeeds or not, and when it succeeds every one
      of those that was a directory is gone while anything else at such a path
      is left. */
  lemma {:induction false} RemoveSavesDisk(env: Env, st: State, rows: seq<(int, Save)>)
    requires DistinctIds(rows)
    ensures var r := RemoveSaves(env, st, rows);
            r.status.Ok? ==> forall k :: 0 <= k < |rows| ==>
              Get(r.state.disk, SaveDir(env.cwd, rows[k])) == AfterRemoval(st.disk, SaveDir(env.cwd, rows[k]))
    ensures var r := RemoveSaves(env, st, rows);
            forall q :: (forall k :: 0 <= k < |rows| ==> Disjoint(SaveDir(env.cwd, rows[k]), q)) ==>
              Get(r.state.disk, q) == Get(st.disk, q)
    decreases |rows|
  {
    if rows != [] && !Undeletable(env, st.disk, SaveDir(env.cwd, rows[0])) {
      var dir := SaveDir(env.cwd, rows[0]);
      var st1 := RemoveOne(env, st, rows[0]);
      var rest := rows[1..];
      DistinctIdsTail(rows);
      RemoveSavesDisk(env, st1, rest);
      forall j | 0 <= j < |rest|
        ensures Disjoint(SaveDir(env.cwd, rest[j]), dir)
        ensures Get(st1.disk, SaveDir(env.cwd, rest[j])) == Get(st.disk, SaveDir(env.cwd, rest[j]))
      {
        assert rest[j] == rows[j + 1];
        SaveDirsDisjoint(env, rows, j + 1);
        RemoveOneFrame(env, st, rows[0], SaveDir(env.cwd, rest[j]));
      }
      forall q | forall k :: 0 <= k < |rows| ==> Disjoint(SaveDir(env.cwd, rows[k]), q)
        ensures Get(RemoveSaves(env, st, rows).state.disk, q) == Get(st.disk, q)
      {
        assert Disjoint(SaveDir(env.cwd, rows[0]), q);
        RemoveOneFrame(env, st, rows[0], q);
      }
    }
  }

  /** Each row `remove_game_save` works through is a save of the game, and
      its backup directory is named after the game. */
  lemma SaveRowsIndexed(cwd: Path, db: Db, game: int)
    ensures var rows := SaveRowsOf(db, game);
            && DistinctIds(rows)
            && forall k :: 0 <= k < |rows| ==>
                 rows[k].0 in SavesOf(db, game)
                 && SaveDir(cwd, rows[k]) == BackupDir(cwd, game, db.saves[rows[k].0].platformId, rows[k].0)
  {
    var rows := SaveRowsOf(db, game);
    var ids := SaveIdsOf(db, game);
    forall k | 0 <= k < |rows|
      ensures rows[k].0 in SavesOf(db, game) && rows[k].1.gameId == game
    {
      assert rows[k].0 == ids[k] && ids[k] in ids;
    }
  }

  /** Every save of the game is among the rows. */
  lemma SaveRowsCover(db: Db, game: int, s: int)
    requires s in SavesOf(db, game)
    ensures exists k :: 0 <= k < |SaveRowsOf(db, game)| && SaveRowsOf(db, game)[k].0 == s
  {
    var ids := SaveIdsOf(db, game);
    assert s in ids;
    var k :| 0 <= k < |ids| && ids[k] == s;
    assert SaveRowsOf(db, game)[k].0 == s;
  }

  /** The rows name exactly the saves of the game and their locations. */
  lemma SaveRowsOfSets(cwd: Path, db: Db, game: int)
    ensures var rows := SaveRowsOf(db, game);
            RowIds(rows) == SavesOf(db, game) && RowLocations(rows) == LocationsOf(db, game)
  {
    var rows := SaveRowsOf(db, game);
    SaveRowsIndexed(cwd, db, game);
    forall s | s in SavesOf(db, game)
      ensures s in RowIds(rows) && db.saves[s].locationId in RowLocations(rows)
    {
      SaveRowsCover(db, game, s);
      var k :| 0 <= k < |rows| && rows[k].0 == s;
      assert rows[k].1 == db.saves[s];
    }
  }

  /** `remove_game_save(game)` succeeds exactly when every backup directory of
      the game's saves that is there may be deleted. It then has deleted the game, all its saves
      and the locations they refer to, and no other row: other games and their
      saves, other locations and all platforms stay. When it panics the game
      row is still there. */
  lemma RemoveGameSaveSpec(env: Env, st: State, game: int)
    ensures var r := RemoveGameSave(env, st, game);
            r.status.Ok? <==> forall s :: s in SavesOf(st.db, game) ==>
                                !Undeletable(env, st.disk, BackupDir(env.cwd, game, st.db.saves[s].platformId, s))
    ensures var r := RemoveGameSave(env, st, game);
            !r.status.Ok? ==> r.status == Panic(DeletePanic) && r.state.db.games == st.db.games
    ensures var r := RemoveGameSave(env, st, game);
            r.status.Ok? ==> r.state.db == Db(st.db.games - {game}, st.db.platforms,
                                             st.db.locations - LocationsOf(st.db, game),
                                             st.db.saves - SavesOf(st.db, game))
  {
    var rows := SaveRowsOf(st.db, game);
    SaveRowsIndexed(env.cwd, st.db, game);
    SaveRowsOfSets(env.cwd, st.db, game);
    forall s | s in SavesOf(st.db, game)
      ensures exists k :: 0 <= k < |rows| && rows[k].0 == s
    {
      SaveRowsCover(st.db, game, s);
    }
    RemoveSavesStatus(env, st, rows);
    RemoveSavesRows(env, st, rows);
  }

  /** On disk, `remove_game_save(game)` changes nothing outside the backup
      directories of the game's saves, and when it succeeds every one of them
      that was a directory is gone. */
  lemma RemoveGameSaveDisk(env: Env, st: State, game: int)
    ensures var r := RemoveGameSave(env, st, game);
            r.status.Ok? ==> forall s :: s in SavesOf(st.db, game) ==>
                               var dir := BackupDir(env.cwd, game, st.db.saves[s].platformId, s);
                               Get(r.state.disk, dir) == AfterRemoval(st.disk, dir)
    ensures var r := RemoveGameSave(env, st, game);
            forall q :: (forall s :: s in SavesOf(st.db, game) ==>
                           Disjoint(BackupDir(env.cwd, game, st.db.saves[s].platformId, s), q)) ==>
              Get(r.state.disk, q) == Get(st.disk, q)
  {
    var rows := SaveRowsOf(st.db, game);
    SaveRowsIndexed(env.cwd, st.db, game);
    forall s | s in SavesOf(st.db, game)
      ensures exists k :: 0 <= k < |rows| && rows[k].0 == s
    {
      SaveRowsCover(st.db, game, s);
    }
    RemoveSavesDisk(env, st, rows);
  }

  /** Deleting saves together with the locations they own keeps the catalog
      consistent, provided every remaining save's game is still there. */
  lemma DropSavesConsistent(db: Db, rows: seq<(int, Save)>, games: map<int, Game>)
    requires Consistent(db)
    requires forall k :: 0 <= k < |rows| ==> rows[k].0 in db.saves && rows[k].1 == db.saves[rows[k].0]
    requires forall s :: s in db.saves && s !in RowIds(rows) ==> db.saves[s].gameId in games
    ensures Consistent(Db(games, db.platforms, db.locations - RowLocations(rows), db.saves - RowIds(rows)))
  {
    forall s | s in db.saves && s !in RowIds(rows)
      ensures db.saves[s].locationId !in RowLocations(rows)
    {
      forall k | 0 <= k < |rows|
        ensures rows[k].1.locationId != db.saves[s].locationId
      {
        assert rows[k].0 in RowIds(rows);
        assert rows[k].0 != s && rows[k].1 == db.saves[rows[k].0];
      }
    }
  }

  /** Removing a game keeps the catalog consistent, also when it panics. */
  lemma RemoveKeepsConsistent(env: Env, st: State, game: int)
    requires Consistent(st.db)
    ensures Consistent(RemoveGameSave(env, st, game).state.db)
  {
    if RemoveSaves(env, st, SaveRowsOf(st.db, game)).status.Ok? {
      RemoveDoneConsistent(env, st, game);
    } else {
      RemoveStoppedConsistent(env, st, game);
    }
  }

  /** The catalog after a removal loop that got through every save, with the
      game row deleted too, is consistent. */
  lemma RemoveDoneConsistent(env: Env, st: State, game: int)
    requires Consistent(st.db)
    requires RemoveSaves(env, st, SaveRowsOf(st.db, game)).status.Ok?
    ensures var r := RemoveSaves(env, st, SaveRowsOf(st.db, game));
            Consistent(DeleteGame(r.state.db, game))
  {
    var rows := SaveRowsOf(st.db, game);
    SaveRowsOfSets(env.cwd, st.db, game);
    RemoveSavesRows(env, st, rows);
    DropSavesConsistent(st.db, rows, st.db.games - {game});
  }

  /** The catalog after a removal loop that stopped part-way is consistent. */
  lemma RemoveStoppedConsistent(env: Env, st: State, game: int)
    requires Consistent(st.db)
    ensures Consistent(RemoveSaves(env, st, SaveRowsOf(st.db, game)).state.db)
  {
    var rows := SaveRowsOf(st.db, game);
    var i := RemoveSavesPartial(env, st, rows);
    var prefix := rows[..i];
    assert forall k :: 0 <= k < |prefix| ==> prefix[k] == rows[k];
    DropSavesConsistent(st.db, prefix, st.db.games);
  }

  // ---------------------------------------------------------------------------
  // Adding, then removing

  /** The catalog after inserting a linked game, platform, location and save
      under fresh ids. */
  function WithNewSave(db: Db, ids: NewIds, g: Game, p: Platform, l: Location): Db {
    Db(db.games[ids.game := g], db.platforms[ids.platform := p], db.locations[ids.location := l],
       db.saves[ids.save := Save(ids.game, ids.location, "", ids.platform)])
  }

  /** Removing a game that was just inserted with its one save deletes exactly
      the inserted rows other than the platform. */
  lemma RemoveAfterInsert(env: Env, disk: Node, db: Db, ids: NewIds, g: Game, p: Platform, l: Location)
    requires Consistent(db)
    requires ids.game !in db.games && ids.platform !in db.platforms
    requires ids.location !in db.locations && ids.save !in db.saves
    ensures var r := RemoveGameSave(env, State(WithNewSave(db, ids, g, p, l), disk), ids.game);
            var dir := BackupDir(env.cwd, ids.game, ids.platform, ids.save);
            && (r.status.Ok? <==> !Undeletable(env, disk, dir))
            && (r.status.Ok? ==> r.state.db == db.(platforms := db.platforms[ids.platform := p]))
            && (r.status.Ok? ==> Get(r.state.disk, dir) == AfterRemoval(disk, dir))
            && (forall q :: Disjoint(dir, q) ==> Get(r.state.disk, q) == Get(disk, q))
  {
    var db1 := WithNewSave(db, ids, g, p, l);
    forall s | s in db1.saves && s != ids.save
      ensures db1.saves[s].gameId != ids.game
    {
      assert db1.saves[s] == db.saves[s];
    }
    assert SavesOf(db1, ids.game) == {ids.save};
    assert LocationsOf(db1, ids.game) == {ids.location};
    RemoveGameSaveSpec(env, State(db1, disk), ids.game);
    RemoveGameSaveDisk(env, State(db1, disk), ids.game);
    assert db1.games - {ids.game} == db.games;
    assert db1.locations - {ids.location} == db.locations;
    assert db1.saves - {ids.save} == db.saves;
  }

  /** Whatever the copy does, an add leaves a directory at the new backup path
      exactly when `create_dir_all` could make one there, and otherwise leaves
      the disk as it was. */
  lemma AddLeavesBackupDir(env: Env, st: State, title: string, publisher: string, releaseDate: string,
                           platform: string, location: string)
    ensures var r := AddGameSave(env, st, title, publisher, releaseDate, platform, location);
            var dir := AddedDir(env, st.db);
            && (IsDirAt(r.state.disk, dir) <==> MkdirAll(st.disk, dir).Some?)
            && (MkdirAll(st.disk, dir).None? ==> r.state.disk == st.disk)
  {
    var dir := AddedDir(env, st.db);
    var prepared := Prepare(st.disk, dir, true);
    assert prepared.Some? <==> MkdirAll(st.disk, dir).Some?;
    if prepared.Some? && Text.Trim(location) == [] {
      assert Get(prepared.value, dir) == Some(DestBefore(st.disk, dir));
    }
  }

  /** Adding a game save and then removing the new game gives back the catalog
      as it was, except for the platform row, which removal keeps. The removal
      succeeds exactly when the new backup directory, if the add could create
      it, may be deleted; then it is gone, the game is not found any more, and
      the rest of the disk is as before the add. */
  lemma AddThenRemove(env: Env, st: State, title: string, publisher: string, releaseDate: string,
                      platform: string, location: string)
    requires Consistent(st.db)
    ensures var a := AddGameSave(env, st, title, publisher, releaseDate, platform, location);
            var ids := FreshIds(st.db);
            var r := RemoveGameSave(env, a.state, ids.game);
            var dir := BackupDir(env.cwd, ids.game, ids.platform, ids.save);
            && (r.status.Ok? <==> (MkdirAll(st.disk, dir).Some? ==> env.canDelete(dir)))
            && (r.status.Ok? ==> r.state.db == st.db.(platforms := st.db.platforms[ids.platform := Platform(Text.Trim(platform))]))
            && (r.status.Ok? ==> GameIdOf(r.state.db, ids.game) == NotFound)
            && (r.status.Ok? ==> Get(r.state.disk, dir) ==
                                 (if MkdirAll(st.disk, dir).Some? then None else Get(st.disk, dir)))
            && (forall q :: Disjoint(dir, q) ==> Get(r.state.disk, q) == Get(st.disk, q))
  {
    var a := AddGameSave(env, st, title, publisher, releaseDate, platform, location);
    var ids := FreshIds(st.db);
    var g := Game(Text.Trim(title), Text.Trim(publisher), Text.Trim(releaseDate));
    var p := Platform(Text.Trim(platform));
    var l := Location(Text.Trim(location), "");
    AddGameSaveRows(env, st, title, publisher, releaseDate, platform, location);
    AddLeavesBackupDir(env, st, title, publisher, releaseDate, platform, location);
    assert a.state == State(WithNewSave(st.db, ids, g, p, l), a.state.disk);
    RemoveAfterInsert(env, a.state.disk, st.db, ids, g, p, l);
  }
}

=== FILE: ids.dfy ===
/** Row identifiers of the catalog: how a fresh id is chosen on insert, and the
    ascending id order in which queries return rows. */
module Ids {

  lemma EmptyIfNoMember(s: set<int>)
    ensures (forall y :: y !in s) ==> s == {}
  {
    if forall y :: y !in s {
      assert s == {};
    }
  }

  lemma SomeElement(s: set<int>) returns (x: int)
    requires s != {}
    ensures x in s
  {
    EmptyIfNoMember(s);
    x :| x in s;
  }

  lemma {:induction false} MaxExists(s: set<int>)
    requires s != {}
    ensures exists m :: m in s && forall y :: y in s ==> y <= m
    decreases |s|
  {
    var x := SomeElement(s);
    var rest := s - {x};
    if rest == {} {
      assert forall y :: y in s ==> y in rest || y == x;
    } else {
      MaxExists(rest);
      var m :| m in rest && forall y :: y in rest ==> y <= m;
      if x <= m {
        assert forall y :: y in s ==> y in rest || y == x;
      } else {
        assert forall y :: y in s ==> y in rest || y == x;
      }
    }
  }

  lemma {:induction false} MinExists(s: set<int>)
    requires s != {}
    ensures exists m :: m in s && forall y :: y in s ==> m <= y
    decreases |s|
  {
    var x := SomeElement(s);
    var rest := s - {x};
    if rest == {} {
      assert forall y :: y in s ==> y in rest || y == x;
    } else {
      MinExists(rest);
      var m :| m in rest && forall y :: y in rest ==> m <= y;
      assert forall y :: y in s ==> y in rest || y == x;
    }
  }

  function Max(s: set<int>): (m: int)
    requires s != {}
    ensures m in s && forall y :: y in s ==> y <= m
  {
    MaxExists(s);
    var m :| m in s && forall y :: y in s ==> y <= m; m
  }

  function Min(s: set<int>): (m: int)
    requires s != {}
    ensures m in s && forall y :: y in s ==> m <= y
  {
    MinExists(s);
    var m :| m in s && forall y :: y in s ==> m <= y; m
  }

  /** The rowid SQLite gives the next row of a table declared `id INTEGER PRIMARY
      KEY` without AUTOINCREMENT: one above the largest id in use, or 1 when the
      table is empty. It is never an id already in use. */
  function NextId(ids: set<int>): (id: int)
    ensures id !in ids
    ensures forall y :: y in ids ==> y < id
    ensures ids == {} ==> id == 1
  {
    if ids == {} then 1 else Max(ids) + 1
  }

  predicate Increasing(r: seq<int>) {
    forall i, j :: 0 <= i < j < |r| ==> r[i] < r[j]
  }

  /** The ids of `s` in ascending order, each exactly once. */
  function Sorted(s: set<int>): (r: seq<int>)
    ensures Increasing(r)
    ensures forall x :: x in r <==> x in s
    ensures |r| == |s|
    decreases |s|
  {
    if s == {} then []
    else
      var m := Min(s);
      [m] + Sorted(s - {m})
  }
}

=== FILE: restore.dfy ===
/** `GameSaves::restore_game_save`: the user picks a game, then answers for
    each of its saves whether to restore it, and in per-file mode answers for
    each file of the backup. Standard input is the sequence of lines still to
    come; reading past its end gives an empty line. The catalog is only read. */
module Restore {
  import opened Wrappers
  import opened FileTree
  import opened Filesystem
  import opened Catalog
  import opened BackupPath
  import opened GameSaves
  import opened Seqs
  import Text
  import Decimal
  import Ids

  const ReadDirPanic := "Failed to read directory"
  const CopyFilePanic := "Failed to copy file"

  /** The lines of standard input not read yet. */
  type Input = seq<string>

  /** The input after `n` lines are read. */
  function Drop(input: Input, n: nat): Input {
    if n <= |input| then input[n..] else []
  }

  /** The line the `n`th read from here returns: empty past the end. */
  function Line(input: Input, n: nat): string {
    if n < |input| then input[n] else ""
  }

  /** `read_line`: the next line and the input after it. */
  function ReadLine(input: Input): (string, Input) {
    (Line(input, 0), Drop(input, 1))
  }

  lemma DropLine(input: Input, n: nat, k: nat)
    ensures Line(Drop(input, n), k) == Line(input, n + k)
    ensures Drop(Drop(input, n), k) == Drop(input, n + k)
  {
  }

  /** How far a restore got: its status, the disk, and the input left. */
  datatype Progress = Progress(status: Status, disk: Node, input: Input)

  /** The panics a restore can end in: the `.expect` on `read_dir` of the
      backup, the one on a per-file `fs::copy`, and the one on `copy_files`. */
  predicate RestorePanic(s: Status) {
    s == Panic(ReadDirPanic) || s == Panic(CopyFilePanic) || s == Panic(CopyPanic)
  }

  // ---------------------------------------------------------------------------
  // The operations

  /** Per-file mode: for each entry of the backup directory, in `read_dir`
      order, one line is read; the entry is copied into the live directory
      under its own name when that line says yes or when `all` is set. A copy
      that fails is a panic. */
  function RestoreFiles(backup: Path, names: seq<Name>, live: Path, all: bool, disk: Node, input: Input): (r: Progress)
    ensures !r.status.Ok? ==> r.status == Panic(CopyFilePanic)
    decreases |names|
  {
    if names == [] then Progress(Ok, disk, input)
    else
      var (answer, rest) := ReadLine(input);
      if Text.IsYes(answer) || all then
        match CopyFile(disk, backup + [names[0]], live, names[0])
        case None => Progress(Panic(CopyFilePanic), disk, rest)
        case Some(d) => RestoreFiles(backup, names[1..], live, all, d, rest)
      else RestoreFiles(backup, names[1..], live, all, disk, rest)
  }

  /** What one save's trimmed answer `choice` does: `Y` or nothing restores
      file by file (nothing meaning every file), `a` copies the whole backup
      tree with `copy_files` into the stored path, and anything else restores
      nothing. Only the per-file mode reads further lines, and a failure is one
      of the restore panics. */
  function RestoreSave(env: Env, backup: Path, livePath: string, choice: string, disk: Node, input: Input): (r: Progress)
    ensures !r.status.Ok? ==> RestorePanic(r.status)
    ensures choice != "Y" && choice != "" ==> r.input == input
  {
    if choice == "Y" || choice == "" then
      if !IsDirAt(disk, backup) then Progress(Panic(ReadDirPanic), disk, input)
      else RestoreFiles(backup, env.order(Get(disk, backup).value.entries), Resolve(env.cwd, livePath),
                        choice == "", disk, input)
    else if choice == "a" then
      var c := CopyFiles(disk, backup, Resolve(env.cwd, livePath), NamesDirectory(livePath), env.order);
      Progress(if c.status.Ok? then Ok else Panic(CopyPanic), c.tree, input)
    else Progress(Ok, disk, input)
  }

  /** The loop over the saves of the chosen game: one answer per save, then
      that save's restore, until one panics. */
  function RestoreSaves(env: Env, db: Db, game: int, rows: seq<(int, Save)>, disk: Node, input: Input): (r: Progress)
    ensures !r.status.Ok? ==> RestorePanic(r.status)
    decreases |rows|
  {
    if rows == [] then Progress(Ok, disk, input)
    else
      var (answer, rest) := ReadLine(input);
      var p := RestoreSave(env, BackupDir(env.cwd, game, rows[0].1.platformId, rows[0].0),
                           LocationOf(db, rows[0].1.locationId).path, Text.Trim(answer), disk, rest);
      if p.status.Ok? then RestoreSaves(env, db, game, rows[1..], p.disk, p.input) else p
  }

  /** `restore_game_save`: a title to search for, then the chosen game id,
      then the answers. A restore never changes the catalog, and fails only
      with the panic on a choice that is not a number or a restore panic. */
  function RestoreGameSave(env: Env, st: State, input: Input): (r: Outcome)
    ensures r.state.db == st.db
    ensures !r.status.Ok? ==> r.status == Panic(InvalidInput) || RestorePanic(r.status)
  {
    var (title, in1) := ReadLine(input);
    if GamesByTitle(st.db, Text.Trim(title)) == [] then Outcome(Ok, st)
    else
      var (choice, in2) := ReadLine(in1);
      match Decimal.ParseI32(Text.Trim(choice))
      case None => Outcome(Panic(InvalidInput), st)
      case Some(id) =>
        var game := GameIdOf(st.db, id);
        var p := RestoreSaves(env, st.db, game, SaveRowsOf(st.db, game), st.disk, in2);
        Outcome(p.status, st.(disk := p.disk))
  }

  // ---------------------------------------------------------------------------
  // The answer for a save

  /** An answer that selects neither restore mode. */
  predicate Skips(choice: string) {
    choice != "Y" && choice != "" && choice != "a"
  }

  /** Any answer other than `Y`, nothing or `a` restores nothing and reads no
      further line; in particular a lower-case `y` and an `n` do not restore. */
  lemma SkippingAnswers(env: Env, backup: Path, livePath: string, choice: string, disk: Node, input: Input)
    ensures Skips(choice) ==> RestoreSave(env, backup, livePath, choice, disk, input) == Progress(Ok, disk, input)
    ensures Skips("y") && Skips("n") && !Skips("Y") && !Skips("") && !Skips("a")
  {
  }

  /** With `a`, the whole backup tree is copied into the live save directory.
      When the two do not overlap, the restore succeeds exactly when that copy
      can succeed, and the live directory then holds the backup merged into
      what it had; otherwise it panics. No further line is read. */
  lemma RestoreAll(env: Env, backup: Path, livePath: string, disk: Node, input: Input)
    requires ValidLister(env.order) && Disjoint(backup, Resolve(env.cwd, livePath))
    ensures var r := RestoreSave(env, backup, livePath, "a", disk, input);
            var live := Resolve(env.cwd, livePath);
            && (r.status.Ok? <==> Prepare(disk, live, NamesDirectory(livePath)).Some? && IsDirAt(disk, backup)
                                  && CanCopy(Get(disk, backup).value, DestBefore(disk, live)))
            && (r.status.Ok? ==> Get(r.disk, live) == Some(Merge(Get(disk, backup).value, DestBefore(disk, live))))
            && (!r.status.Ok? ==> r.status == Panic(CopyPanic))
            && Get(r.disk, backup) == Get(disk, backup)
            && r.input == input
  {
    CopyFilesDisjoint(disk, backup, Resolve(env.cwd, livePath), NamesDirectory(livePath), env.order);
  }

  /** With `Y` or nothing, a missing backup directory is a panic. Otherwise
      its entries are offered one by one in `read_dir` order, one line read for
      each, every one of them taken when the answer for the save was empty;
      when the backup and the live directory do not overlap, the restore
      succeeds exactly when every chosen entry can be copied, and then each
      chosen entry's file is in the live directory under its own name while
      every other entry there is as it was. */
  lemma RestorePerFile(env: Env, backup: Path, livePath: string, choice: string, disk: Node, input: Input)
    requires choice == "Y" || choice == ""
    requires ValidLister(env.order) && Disjoint(backup, Resolve(env.cwd, livePath))
    ensures var r := RestoreSave(env, backup, livePath, choice, disk, input);
            !IsDirAt(disk, backup) ==> r == Progress(Panic(ReadDirPanic), disk, input)
    ensures var r := RestoreSave(env, backup, livePath, choice, disk, input);
            var live := Resolve(env.cwd, livePath);
            IsDirAt(disk, backup) ==>
              var names := env.order(Get(disk, backup).value.entries);
              && (forall n :: n in names <==> n in Get(disk, backup).value.entries)
              && (r.status.Ok? <==> forall k :: 0 <= k < |names| && Chosen(choice == "", input, k) ==>
                                      CopyFile(disk, backup + [names[k]], live, names[k]).Some?)
              && (!r.status.Ok? ==> r.status == Panic(CopyFilePanic))
              && (r.status.Ok? ==> r.input == Drop(input, |names|))
              && (r.status.Ok? ==> forall k :: 0 <= k < |names| ==>
                    Get(r.disk, live + [names[k]]) ==
                    (if Chosen(choice == "", input, k) then Get(disk, backup + [names[k]])
                     else Get(disk, live + [names[k]])))
  {
    if IsDirAt(disk, backup) {
      var live := Resolve(env.cwd, livePath);
      var m := Get(disk, backup).value.entries;
      var names := env.order(m);
      assert Lists(names, m);
      RestoreFilesStatus(backup, names, live, choice == "", disk, input);
      RestoreFilesCopies(backup, names, live, choice == "", disk, input);
    }
  }

  // ---------------------------------------------------------------------------
  // Per-file mode

  /** Whether the `k`th entry is copied: its own answer says yes, or the
      answer for the save was empty. */
  predicate Chosen(all: bool, input: Input, k: nat) {
    all || Text.IsYes(Line(input, k))
  }

  /** Copying the entry `n` changes, of what the per-file loop looks at later,
      nothing about any other entry `m`. */
  lemma CopyFileKeepsOthers(disk: Node, backup: Path, live: Path, n: Name, m: Name)
    requires Disjoint(backup, live) && m != n
    requires CopyFile(disk, backup + [n], live, n).Some?
    ensures var d := CopyFile(disk, backup + [n], live, n).value;
            && Get(d, backup + [m]) == Get(disk, backup + [m])
            && Get(d, live + [m]) == Get(disk, live + [m])
            && CopyFile(d, backup + [m], live, m).Some? == CopyFile(disk, backup + [m], live, m).Some?
  {
    var v := Get(disk, backup + [n]).value;
    DisjointExtend(live, backup, n, m);
    GetPut(disk, live, n, v, backup + [m]);
    DisjointSiblings(live, n, m);
    GetPut(disk, live, n, v, live + [m]);
    GetPutDir(disk, live, n, v);
  }

  /** What the first iteration of the per-file loop leaves for the rest. */
  lemma RestoreFilesStep(backup: Path, names: seq<Name>, live: Path, all: bool, disk: Node, input: Input)
    requires Disjoint(backup, live) && Distinct(names) && names != []
    ensures Distinct(names[1..])
    ensures forall k :: 0 <= k < |names| - 1 ==>
              names[1..][k] == names[k + 1] && names[1..][k] != names[0]
              && Chosen(all, Drop(input, 1), k) == Chosen(all, input, k + 1)
              && Disjoint(live + [names[1..][k]], live + [names[0]])
    ensures Drop(Drop(input, 1), |names| - 1) == Drop(input, |names|)
    ensures var c := CopyFile(disk, backup + [names[0]], live, names[0]);
            c.Some? ==> forall k :: 0 <= k < |names| - 1 ==>
              && Get(c.value, backup + [names[1..][k]]) == Get(disk, backup + [names[1..][k]])
              && Get(c.value, live + [names[1..][k]]) == Get(disk, live + [names[1..][k]])
              && CopyFile(c.value, backup + [names[1..][k]], live, names[1..][k]).Some? ==
                 CopyFile(disk, backup + [names[1..][k]], live, names[1..][k]).Some?
  {
    var n := names[0];
    var rest := names[1..];
    forall k | 0 <= k < |rest|
      ensures rest[k] == names[k + 1] && rest[k] != n
      ensures Chosen(all, Drop(input, 1), k) == Chosen(all, input, k + 1)
      ensures Disjoint(live + [rest[k]], live + [n])
    {
      DropLine(input, 1, k);
      DisjointSiblings(live, rest[k], n);
    }
    DropLine(input, 1, |rest|);
    var c := CopyFile(disk, backup + [n], live, n);
    if c.Some? {
      forall k | 0 <= k < |rest|
        ensures Get(c.value, backup + [rest[k]]) == Get(disk, backup + [rest[k]])
        ensures Get(c.value, live + [rest[k]]) == Get(disk, live + [rest[k]])
        ensures CopyFile(c.value, backup + [rest[k]], live, rest[k]).Some? ==
                CopyFile(disk, backup + [rest[k]], live, rest[k]).Some?
      {
        CopyFileKeepsOthers(disk, backup, live, n, rest[k]);
      }
    }
  }

  /** Whether or not it succeeds, the per-file loop changes nothing outside
      the entries of the live directory it was offered. */
  lemma {:induction false} RestoreFilesFrame(backup: Path, names: seq<Name>, live: Path, all: bool, disk: Node, input: Input, q: Path)
    requires forall k :: 0 <= k < |names| ==> Disjoint(live + [names[k]], q)
    ensures Get(RestoreFiles(backup, names, live, all, disk, input).disk, q) == Get(disk, q)
    decreases |names|
  {
    if names != [] {
      assert forall k :: 0 <= k < |names| - 1 ==> names[1..][k] == names[k + 1];
      var c := CopyFile(disk, backup + [names[0]], live, names[0]);
      if Chosen(all, input, 0) && c.Some? {
        GetPut(disk, live, names[0], Get(disk, backup + [names[0]]).value, q);
        RestoreFilesFrame(backup, names[1..], live, all, c.value, Drop(input, 1), q);
      } else {
        RestoreFilesFrame(backup, names[1..], live, all, disk, Drop(input, 1), q);
      }
    }
  }

  /** For a backup and live directory that do not overlap, the per-file loop
      succeeds exactly when every chosen entry can be copied. */
  lemma {:induction false} RestoreFilesStatus(backup: Path, names: seq<Name>, live: Path, all: bool, disk: Node, input: Input)
    requires Disjoint(backup, live) && Distinct(names)
    ensures RestoreFiles(backup, names, live, all, disk, input).status.Ok? <==>
            forall k :: 0 <= k < |names| && Chosen(all, input, k) ==>
              CopyFile(disk, backup + [names[k]], live, names[k]).Some?
    decreases |names|
  {
    if names != [] {
      RestoreFilesStep(backup, names, live, all, disk, input);
      var c := CopyFile(disk, backup + [names[0]], live, names[0]);
      if Chosen(all, input, 0) && c.Some? {
        RestoreFilesStatus(backup, names[1..], live, all, c.value, Drop(input, 1));
      } else if !Chosen(all, input, 0) {
        RestoreFilesStatus(backup, names[1..], live, all, disk, Drop(input, 1));
      }
    }
  }

  /** For a backup and live directory that do not overlap, a per-file loop
      that succeeds has put each chosen entry's backup file under the same name
      in the live directory and left every other entry as it was, having read
      one line per entry. */
  lemma {:induction false} RestoreFilesCopies(backup: Path, names: seq<Name>, live: Path, all: bool, disk: Node, input: Input)
    requires Disjoint(backup, live) && Distinct(names)
    ensures var r := RestoreFiles(backup, names, live, all, disk, input);
            r.status.Ok? ==> forall k :: 0 <= k < |names| ==>
              Get(r.disk, live + [names[k]]) ==
              (if Chosen(all, input, k) then Get(disk, backup + [names[k]]) else Get(disk, live + [names[k]]))
    ensures var r := RestoreFiles(backup, names, live, all, disk, input);
            r.status.Ok? ==> r.input == Drop(input, |names|)
    decreases |names|
  {
    if names != [] {
      var n := names[0];
      var rest := names[1..];
      RestoreFilesStep(backup, names, live, all, disk, input);
      var c := CopyFile(disk, backup + [n], live, n);
      var d := if Chosen(all, input, 0) && c.Some? then c.value else disk;
      if !Chosen(all, input, 0) || c.Some? {
        RestoreFilesCopies(backup, rest, live, all, d, Drop(input, 1));
        RestoreFilesFrame(backup, rest, live, all, d, Drop(input, 1), live + [n]);
      }
    }
  }

  /** When the answer for the save was empty, every entry is copied whatever
      the per-file answers are: the loop ends as it would with no answers at
      all. */
  lemma {:induction false} EmptyAnswerTakesAll(backup: Path, names: seq<Name>, live: Path, disk: Node, input: Input)
    ensures var r := RestoreFiles(backup, names, live, true, disk, input);
            var s := RestoreFiles(backup, names, live, true, disk, []);
            r.status == s.status && r.disk == s.disk
    decreases |names|
  {
    if names != [] {
      var c := CopyFile(disk, backup + [names[0]], live, names[0]);
      if c.Some? {
        EmptyAnswerTakesAll(backup, names[1..], live, c.value, Drop(input, 1));
        EmptyAnswerTakesAll(backup, names[1..], live, c.value, []);
      }
    }
  }

  // ---------------------------------------------------------------------------
  // The whole restore

  /** When every save's answer skips it, the restore changes nothing on disk
      and reads one line per save. */
  lemma {:induction false} SkippingEverySave(env: Env, db: Db, game: int, rows: seq<(int, Save)>, disk: Node, input: Input)
    requires forall k :: 0 <= k < |rows| ==> Skips(Text.Trim(Line(input, k)))
    ensures RestoreSaves(env, db, game, rows, disk, input) == Progress(Ok, disk, Drop(input, |rows|))
    decreases |rows|
  {
    if rows != [] {
      var in1 := Drop(input, 1);
      forall k | 0 <= k < |rows| - 1
        ensures Skips(Text.Trim(Line(in1, k)))
      {
        DropLine(input, 1, k);
        assert Skips(Text.Trim(Line(input, k + 1)));
      }
      DropLine(input, 1, |rows| - 1);
      SkippingEverySave(env, db, game, rows[1..], disk, in1);
    }
  }

  /** The cases in which a restore touches nothing: no game matches the
      search, or the chosen number is no game's id in a consistent catalog
      (the sentinel id then has no saves); a choice that is not a number is a
      panic. */
  lemma RestoreWithoutChange(env: Env, st: State, input: Input)
    ensures var r := RestoreGameSave(env, st, input);
            GamesByTitle(st.db, Text.Trim(Line(input, 0))) == [] ==> r == Outcome(Ok, st)
    ensures var r := RestoreGameSave(env, st, input);
            GamesByTitle(st.db, Text.Trim(Line(input, 0))) != [] && Decimal.ParseI32(Text.Trim(Line(input, 1))).None? ==>
              r == Outcome(Panic(InvalidInput), st)
    ensures var r := RestoreGameSave(env, st, input);
            var c := Decimal.ParseI32(Text.Trim(Line(input, 1)));
            Consistent(st.db) && NotFound !in st.db.games && c.Some? && c.value !in st.db.games ==>
              r == Outcome(Ok, st)
  {
    DropLine(input, 1, 0);
    if Consistent(st.db) && NotFound !in st.db.games {
      assert forall s :: s in st.db.saves ==> st.db.saves[s].gameId != NotFound;
      Ids.EmptyIfNoMember(SavesOf(st.db, NotFound));
      assert SavesOf(st.db, NotFound) == {};
      assert SaveIdsOf(st.db, NotFound) == [];
    }
  }
}

=== FILE: seqs.dfy ===
/** Facts about sequences shared by the listing of a directory and the rows
    a query returns. */
module Seqs {

  /** No element occurs twice. */
  ghost predicate Distinct<T>(s: seq<T>) {
    forall i, j :: 0 <= i < j < |s| ==> s[i] != s[j]
  }
}

=== FILE: text.dfy ===
/** The string handling the game-save workflows apply to every line read from
    standard input: Rust's `str::trim`, and the `to_lowercase() == "y"` test of
    the per-file restore prompt. */
module Text {

  /** Unicode White_Space, the characters `char::is_whitespace` accepts and
      `str::trim` strips from both ends. */
  predicate IsWhitespace(c: char) {
    var k := c as int;
    || (0x09 <= k <= 0x0D) || k == 0x20 || k == 0x85 || k == 0xA0 || k == 0x1680
    || (0x2000 <= k <= 0x200A) || k == 0x2028 || k == 0x2029 || k == 0x202F
    || k == 0x205F || k == 0x3000
  }

  /** The number of whitespace characters `s` starts with. */
  function Lead(s: string): (n: nat)
    ensures n <= |s|
    ensures forall k :: 0 <= k < n ==> IsWhitespace(s[k])
    ensures n < |s| ==> !IsWhitespace(s[n])
  {
    if s != [] && IsWhitespace(s[0]) then 1 + Lead(s[1..]) else 0
  }

  /** `str::trim_end`: the longest prefix of `s` that does not end with whitespace. */
  function TrimEnd(s: string): (r: string)
    ensures |r| <= |s| && r == s[..|r|]
    ensures forall k :: |r| <= k < |s| ==> IsWhitespace(s[k])
    ensures r != [] ==> !IsWhitespace(r[|r| - 1])
  {
    if s != [] && IsWhitespace(s[|s| - 1]) then TrimEnd(s[..|s| - 1]) else s
  }

  /** `str::trim`: `s` without its leading and trailing whitespace. The result is
      the slice of `s` that starts after the leading whitespace, everything after
      it is whitespace, and it neither starts nor ends with whitespace. */
  function Trim(s: string): (r: string)
    ensures Lead(s) + |r| <= |s| && r == s[Lead(s)..Lead(s) + |r|]
    ensures forall k :: Lead(s) + |r| <= k < |s| ==> IsWhitespace(s[k])
    ensures r != [] ==> !IsWhitespace(r[0]) && !IsWhitespace(r[|r| - 1])
  {
    TrimEnd(s[Lead(s)..])
  }

  /** An answer line is blank exactly when it holds nothing but whitespace: this
      is how a bare Enter (or the end of input) reaches every `trim() == ""` test. */
  lemma TrimEmptyIff(s: string)
    ensures Trim(s) == [] <==> forall k :: 0 <= k < |s| ==> IsWhitespace(s[k])
  {
  }

  /** Trimming a second time changes nothing. */
  lemma TrimIdempotent(s: string)
    ensures Trim(Trim(s)) == Trim(s)
  {
    var r := Trim(s);
    if r != [] {
      assert Lead(r) == 0;
      assert TrimEnd(r) == r;
    }
  }

  /** ASCII lower-casing of one character; see `IsYes` for why that suffices. */
  function LowerChar(c: char): char {
    if 'A' <= c <= 'Z' then (c as int + 32) as char else c
  }

  function ToLowercase(s: string): string {
    seq(|s|, i requires 0 <= i < |s| => LowerChar(s[i]))
  }

  /** The per-file restore confirmation `answer.trim().to_lowercase() == "y"`.
      The only characters whose lower case is the single letter `y` are `y`
      and `Y`, so lower-casing the ASCII letters alone decides the test. */
  predicate IsYes(answer: string) {
    ToLowercase(Trim(answer)) == "y"
  }

  /** A file is confirmed by exactly the answers `y` and `Y`, surrounded by any
      whitespace. */
  lemma IsYesIff(answer: string)
    ensures IsYes(answer) <==> Trim(answer) == "y" || Trim(answer) == "Y"
  {
    var t := Trim(answer);
    if IsYes(answer) {
      assert |t| == 1;
      assert ToLowercase(t)[0] == 'y';
      assert LowerChar(t[0]) == 'y';
      assert t == [t[0]];
    }
  }
}

=== FILE: wrappers.dfy ===
/** The optional value the model uses wherever the program may find nothing:
    a path that names no entry, a directory that cannot be created, a string
    that is not a number. */
module Wrappers {

  datatype Option<+T> = None | Some(value: T)
}
